=== FILE: README.md ===
# Purchase-order reconciliation: a Dafny model

`2-Check_POS.py` reconciles purchase orders shown on a point-of-sale
dashboard against a spreadsheet of expected deliveries. Each sheet row holds
a product name in column A, a notes column F and an outstanding quantity in
column G. An order number sits in column M. When an order line has been
received, the script copies the quantity into column F and clears column G.

This project models the decision logic of that reconciliation as pure
functions over an immutable grid, and proves properties of those functions.

- **Grid** (`grid.dfy`). A tab is a sequence of rows of cell texts, read
  1-based through `Cell`. A cell outside the stored area reads `""`.
  `SetCell` models `update_cell`. `WritesOnly` and `OpenRowsOnly` state
  which cells a step may change.
- **Text** (`text.dfy`). Python's `str.strip()` (the `str.isspace` set) and
  `str.lower()` (ASCII letters). Also the decimal text an integer shows once
  it is written to a cell.
- **Items** (`items.dfy`). Scraped line items `(name, qty, status)`, the
  whitespace stripping applied to them, and a per-item outcome log.
- **RowIndex** (`row_index.dfy`). The lookup table of the "Received" path.
  It maps `(lower(strip(A)), int(float(strip(G))))` to the rows carrying
  that key, in ascending order. The table is built from a snapshot that
  includes the header row.
- **Received** (`received.dfy`). The item loop of the "Received" handler. A
  hit moves the whole bucket and deletes the key.
- **Partial** (`partial.dfy`). The item loop of the "Partially Received"
  handler. A first-fit scan runs from a forward-only cursor to
  `len(col_values(M)) + 1` inclusive. Quantities are compared as stripped
  texts. In the model the cursor is an explicit argument and result, not a
  global.
- **Dispatch** (`dispatch.dfy`). `handle_order_status` and the Pending
  handler. Also the loop over the orders of one tab, with the cursor reset
  to row 2 at the start of each tab.
- **Scenarios** (`scenarios.dfy`). Concrete runs on small sheets.

The model has three parameters that stand for things it cannot see:

- `int(float(text))` is a function `parse: string -> Parsed`. Its result is
  one of three cases: a number; `NotNumber`, a `ValueError` that both call
  sites catch; or `TooLarge`, an `OverflowError` such as the one `"inf"`
  raises. No call site catches `OverflowError`, so the Received handler's
  outer `except` returns `False` and the remaining items are not processed.
- What the dashboard shows for an order (its status text and line items) is
  a function `observe` of the order's position and number.
- The sheet is a value. A handler returns the updated sheet instead of
  writing through a connection.

Both handlers return `True` once their item loop finishes, whether or not any
item matched (`2-Check_POS.py:351`, `:474`). The model keeps that. It does not
adopt a rule where an order succeeds only if some item matched.

## Model

| member | source | states |
|---|---|---|
| Text.StripMeaning | 2-Check_POS.py:292-293 | `strip()` cuts only whitespace, and only from the two ends: the result is a slice of the text with an all-whitespace prefix and suffix removed; it is empty exactly when the text is all whitespace, and a non-empty result has no whitespace at either end |
| Text.StripIdempotent | 2-Check_POS.py:452 | stripping a text that was already stripped changes nothing, so the scraped (already stripped) item quantity compares with the stripped cell as written |
| Text.LowerMeaning | 2-Check_POS.py:301 | lower-casing maps each character on its own and keeps the length |
| Text.DecimalRoundTrip | 2-Check_POS.py:330 | the decimal text the Received path writes to column F reads back as the same integer |
| Grid.SetCell | 2-Check_POS.py:330-332 | `update_cell(r, c, v)` makes cell (r, c) read `v` and leaves every other cell of the grid unchanged |
| Grid.MoveQty | 2-Check_POS.py:454-456 | the write pair of a match: F gets the given text, G becomes empty, and no other cell, row or column changes |
| Grid.MoveAll | 2-Check_POS.py:328-333 | every row of a bucket gets F set and G cleared, and only F and G of those rows change |
| Grid.ColumnLength | 2-Check_POS.py:431 | `len(col_values(M))` is the last row whose M cell is non-empty; every row below it is empty in M |
| Items.Scrape | 2-Check_POS.py:260-279 | each scraped text is a fixed point of `strip()`, and the scraped quantity is empty exactly when the raw text was all whitespace |
| Items.AwaitingReceipt | 2-Check_POS.py:441 | a line still awaits receipt when its status, lower-cased, is `"receive"`; both handlers use this test (also at `:307`) |
| Items.MatchedRows | 2-Check_POS.py:445-462 | a row is listed as taken by the partial path exactly when the outcome log records a single-row match on it |
| Items.MatchedRowsAppend | 2-Check_POS.py:434-465 | the rows taken by two consecutive runs are the first run's rows followed by the second's |
| RowIndex.RowEntry | 2-Check_POS.py:292-300 | one snapshot row: its stripped A and G texts; blank in either leaves it out; a G text that does not parse leaves it out; an overflowing one raises; otherwise its key is the lower-cased stripped name and the parsed integer |
| RowIndex.IndexRows | 2-Check_POS.py:291-302 | the row-by-row build succeeds exactly when no scanned row overflows; on success every bucket is non-empty, strictly ascending, lists only rows whose entry has that key, and every eligible row is listed |
| RowIndex.BuildIndex | 2-Check_POS.py:289-302 | the index of the whole snapshot, header row included, exists exactly when no row's quantity overflows, and then describes the snapshot exactly |
| RowIndex.DescribedDisjoint | 2-Check_POS.py:301-302 | an index that describes the snapshot lists no row under two keys, since each row yields at most one key |
| RowIndex.KeyInIndex | 2-Check_POS.py:289-302 | a key is in the built index exactly when some snapshot row carries it |
| RowIndex.AppendKeepsIndex | 2-Check_POS.py:302 | `setdefault(key, []).append(r)` on a fresh row keeps the index an exact description of the rows scanned so far |
| RowIndex.IndexMembership | 2-Check_POS.py:289-302 | row r is in the bucket of key k if and only if r is a snapshot row whose entry is eligible with key k |
| RowIndex.BucketsAscending | 2-Check_POS.py:291-302 | each bucket is non-empty and lists its rows in strictly ascending scan order |
| RowIndex.BucketsDisjoint | 2-Check_POS.py:301-302 | a row sits in at most one bucket |
| RowIndex.IndexedRows | 2-Check_POS.py:289-302 | the rows in the index are exactly the snapshot rows with non-blank stripped name and quantity whose quantity parses, so a row cleared by an earlier order is absent |
| Received.ReceiveItem | 2-Check_POS.py:305-337 | the status test comes before the empty-quantity test; an unparsable quantity is skipped and an overflowing one raises; a looked-up item consumes a bucket if and only if its key is in the index; a hit writes the integer's text to F and clears G in every row of the bucket and deletes the key; anything else writes nothing and keeps the index |
| Received.ItemKey | 2-Check_POS.py:317-324 | the lookup key of an item: its lower-cased name and its quantity parsed as an integer |
| Received.ItemKeyRows | 2-Check_POS.py:317-325 | row r is in the bucket an item looks up exactly when r is a snapshot row whose stripped, lower-cased name equals the item's lower-cased name and whose stripped quantity parses to the integer the item's quantity parses to |
| Received.ReceiveItems | 2-Check_POS.py:305-337 | the loop completes exactly when no item's quantity overflows, and otherwise stops exactly at the first item that overflows; each logged outcome is the one the item gets: skips in the status-then-empty-then-unparsable order, a bucket match exactly when its key is indexed and no earlier item of the call consumed that key, else no match; every row of a consumed bucket ends with the integer's text in F and an empty G; only F and G of rows in consumed buckets change, so every other row keeps its values; the index only loses keys |
| Received.ReceiveStepFrame | 2-Check_POS.py:324-335 | one item's writes followed by the rest's stay within the rows of the index the item started from |
| Received.ReceiveStepConsumed | 2-Check_POS.py:327-335 | one item's bucket writes followed by the rest's change only F and G of the buckets the log records as consumed |
| Received.FirstBucketSettled | 2-Check_POS.py:324-335 | the rows of a consumed bucket belong to no other bucket, so the later items, which write only rows of the buckets left, never overwrite them |
| Received.UnmatchedItemDoesNotStop | 2-Check_POS.py:318-322 | an item with an unparsable quantity or an absent key writes nothing, and the later items behave exactly as if it were not there |
| Received.ConsumedKeyStaysConsumed | 2-Check_POS.py:324-335 | after an item consumes the bucket of its key, a later item of the same call with the same key finds no match |
| Received.KeyAbsentStaysUnmatched | 2-Check_POS.py:325-337 | a key missing from the index stays missing for the rest of the call, so every item looking it up finds no match |
| Received.ProcessReceived | 2-Check_POS.py:288-337 | the handler reports true exactly when no snapshot quantity overflows and no scraped item's quantity overflows; a snapshot overflow writes nothing and handles no item; on an item overflow it stops at that item; each logged outcome is stated against the snapshot: a looked-up item takes, in ascending order, exactly the snapshot rows carrying its key, unless an earlier item took that key; every row taken ends with the integer's text in F and an empty G; only F and G of rows in consumed buckets change, and those are snapshot rows with non-blank name and parsable quantity |
| Received.ConsumedRowsCleared | 2-Check_POS.py:292-335 | a row of a consumed bucket had a non-blank quantity in the snapshot, because only such rows are indexed, and ends with an empty quantity |
| Received.ConsumedRowsAppend | 2-Check_POS.py:303-335 | the buckets two stretches of the item loop consume are together the buckets the whole loop consumes |
| Received.SnapshotOutcomes | 2-Check_POS.py:289-337 | an outcome stated against the index is the same outcome stated against the snapshot the index was built from |
| Received.ReceivedFrame | 2-Check_POS.py:289-332 | writes confined to the rows of the index are writes to F and G of eligible snapshot rows |
| Received.SnapshotOverflowWritesNothing | 2-Check_POS.py:297-298 | an overflowing quantity anywhere in the snapshot makes the handler report false before any write |
| Partial.FirstFit | 2-Check_POS.py:447-452 | the scan returns the least row in `[cursor, last]` whose stripped, lower-cased name and stripped quantity text match the item, or nothing if no row in that range matches |
| Partial.RowMatches | 2-Check_POS.py:452 | a row matches an item when its stripped, lower-cased column A equals the item's lower-cased name and its stripped column G equals the stripped item quantity, compared as texts |
| Partial.PartialItem | 2-Check_POS.py:434-465 | the empty-quantity test comes before the status test; a miss changes neither the sheet nor the cursor; a hit takes the least matching row r at or after the cursor, writes the raw quantity to F, clears G, touches nothing else, and moves the cursor to r + 1 |
| Partial.PartialItems | 2-Check_POS.py:434-465 | every item is handled; the cursor never moves back; each outcome is first-fit on the sheet as it stood before the order, scanning from where the earlier items left the cursor: a no-match item has no matching row in `[that cursor, last]`, a matched item gets the least matching row there; every row taken ends with the item's quantity text in F and an empty G; the rows taken are strictly ascending, lie between the old and new cursor, the new cursor is one past the last of them, and only F and G of taken rows change |
| Partial.PartialStep | 2-Check_POS.py:447-462 | one item's take followed by the rest's keeps the taken rows ascending and confined, and keeps the cursor one past the last of them |
| Partial.StepRows | 2-Check_POS.py:460 | a row taken before every later take, with the cursor moved past it, keeps the taken rows strictly ascending |
| Partial.StepFrame | 2-Check_POS.py:454-456 | the writes of one take followed by the rest's touch only the taken rows |
| Partial.StepFits | 2-Check_POS.py:447-460 | a later item's scan starts at or past the cursor the first item handed on, where the sheet is unchanged, so its first-fit outcome on the sheet it saw is its outcome on the sheet before the order |
| Partial.StepSettled | 2-Check_POS.py:454-460 | a taken row is never written again by a later item, since later items scan only past it |
| Partial.ProcessPartial | 2-Check_POS.py:427-474 | the handler reports true and handles every item; the scan ends at `len(col_values(M)) + 1`; each outcome is first-fit on the sheet before the order from the cursor the earlier items left; every taken row ends with the quantity text in F and an empty G; the taken rows ascend and only their F and G change; a taken row had a non-blank quantity before the order |
| Partial.TakenRowsWereOpen | 2-Check_POS.py:436-452 | a scraped item never has a blank quantity, so a row it matches had a non-blank quantity cell |
| Partial.TakenRowsCleared | 2-Check_POS.py:454-456 | every row the order took ends with an empty quantity |
| Dispatch.StatusIgnoresSurroundingSpace | 2-Check_POS.py:495 | the status cell is stripped before the lookup, so surrounding whitespace never changes the handler chosen |
| Dispatch.StatusCaseMatters | 2-Check_POS.py:498-509 | the label lookup is an exact dictionary lookup, so lower-case "received" or "partially received" selects no handler |
| Dispatch.HandleOrder | 2-Check_POS.py:483-509 | "Received" and "Partially Received" reach their handlers; Pending and unrecognized texts write nothing, keep the cursor and report false; Received keeps the cursor and reports as its handler does; Partially Received reports true; only F and G of the rows the order selected (consumed buckets and single takes) change; each such row had a non-blank quantity when the order began and ends with an empty one |
| Dispatch.ReceivedOrder | 2-Check_POS.py:501-506 | the Received branch passes the cursor through and takes no single rows; it reports true exactly when nothing overflows, in which case every item is handled; otherwise it stopped at the first overflowing item, or, on a snapshot overflow, wrote nothing and handled no item; it carries each item's outcome against the snapshot and the final F and G of consumed rows, changes only F and G of the buckets it consumed, and each consumed row was open before and ends with an empty quantity |
| Dispatch.PartialOrder | 2-Check_POS.py:500-506 | the Partially Received branch reports true and handles every item; the cursor it hands back is one past the last row taken, or the cursor it got when nothing was taken, and no row past the scan end is taken; it carries the first-fit outcome of each item and the final F and G of the rows it took, consumes no bucket, changes only F and G of the rows it took, and each of them was open before and ends with an empty quantity |
| Dispatch.PartialOpenRows | 2-Check_POS.py:452-456 | a take confined to rows with a non-blank quantity writes only open rows |
| Dispatch.OrderNumbersCover | 2-Check_POS.py:520 | every non-empty order number in column M at row 2 or below is listed, at the position of its row, and the list ends at the column's last non-empty cell |
| Dispatch.ProcessOrders | 2-Check_POS.py:520-540 | the tab keeps one log per non-empty order number, joined in order; the cursor never moves back and the rows taken by partial receipts are strictly ascending; only F and G of the rows the orders selected change; every row an order selected was open when the tab began and ends with an empty quantity, and no later order selects it again |
| Dispatch.OrderThenRest | 2-Check_POS.py:522-537 | one order's takes followed by the later orders' keep the rows of the whole tab ascending |
| Dispatch.OrderThenRestFrame | 2-Check_POS.py:522-537 | one order's writes followed by the later orders' stay within the rows all of them selected, and the per-order logs join into the tab's log |
| Dispatch.OrderThenRestOpen | 2-Check_POS.py:522-537 | every order's selected rows were open when the tab began and are cleared at its end |
| Dispatch.OrderThenRestApart | 2-Check_POS.py:522-537 | a row the first order selected is selected by no later order, because it is cleared when they begin and they select only open rows |
| Dispatch.ClearedApartFromOpen | 2-Check_POS.py:522-537 | a row whose quantity an earlier order emptied is not open, so it is apart from the rows a later order may select |
| Dispatch.OpenBefore | 2-Check_POS.py:522-537 | a row open after writes confined to open rows was open before them |
| Dispatch.StaysCleared | 2-Check_POS.py:522-537 | writes confined to open rows leave a cleared row cleared |
| Dispatch.SelectedRowsAppend | 2-Check_POS.py:522-537 | the rows two stretches of orders select are together the rows the whole stretch selects |
| Dispatch.ProcessTab | 2-Check_POS.py:556-564 | with the cursor reset to row 2 for each tab, the partial path never takes the header row, and every row it takes in the tab lies below all rows taken before it; one log per non-empty order number; only F and G of selected rows change, and no order selects a row an earlier order of the tab selected |
| Dispatch.SkippedOnEitherPath | 2-Check_POS.py:305-314 | an item still awaiting receipt or with an empty quantity is never matched and writes nothing on either path; the recorded reason follows each path's test order |
| Dispatch.PendingAndUnknownWriteNothing | 2-Check_POS.py:189-193 | Pending, and any status text other than the two receipt labels, leave sheet and cursor as they were and report false |
| Scenarios.WidgetIndex | 2-Check_POS.py:289-302 | a header and two rows ("Widget", "5") index as one bucket holding rows 2 and 3 |
| Scenarios.WidgetBucket | 2-Check_POS.py:324-335 | one received item ("Widget", "5") updates both rows of its bucket and the handler reports true |
| Scenarios.GadgetFirstFit | 2-Check_POS.py:427-462 | on a sheet whose column M is filled down to row 3, two partial-receipt items with the same name and quantity take rows 2 and 3 in turn through the whole handler, which reports true and hands on cursor 4 |
| Scenarios.TakesRowAtCursor | 2-Check_POS.py:447-460 | an item whose quantity is non-empty, which no longer awaits receipt and which matches the row under the cursor takes that row, writes its quantity to F, clears G and moves the cursor one row on |
| Scenarios.GadgetScanEnd | 2-Check_POS.py:431 | with column M filled down to row 3, the scan runs through row 4 |
| Scenarios.PartialQuantityIsTextual | 2-Check_POS.py:452 | the partial path compares quantities as text, so "2.0" on the page does not take a row holding "2" |

## Left out

- Browser automation is not modelled: login, search, clicks, waits, the modal, the Save button, and the DOM extraction of line items (`2-Check_POS.py:54-183`, `199-286`, `366-425`). Line items are an input. The order's status and items come from the `observe` parameter.
- The Received handler's early `return False` when the order link, status cell or modal is not found is not modelled. It depends only on the browser and happens before any sheet access.
- The spreadsheet connection is not modelled (`connect_to_google_sheet`, `get_all_values`, `cell`, `col_values`, `update_cell`). The sheet is an in-memory value.
- Floating-point parsing is not modelled. `int(float(text))` is the `parse` parameter with three outcomes, so the model says nothing about which texts parse to which integer.
- Only ASCII letters are lower-cased. Python's full Unicode `str.lower()` is not modelled.
- `Grid.Cell`: an empty cell reads as `""`. The spreadsheet library can report `None` for such a cell, which `str()` turns into the text `"None"`. That case is not modelled.
- `Received.ReceiveItem`: the text written to column F is the decimal rendering of the integer. How the spreadsheet formats a number it stores is not modelled.
- Exceptions other than `OverflowError` during parsing are not modelled: a failing sheet call, a failing click, a row shorter than seven cells raising `IndexError`. The catch-alls that turn them into `False` are left out too.
- `time.sleep` calls and logging are not modelled.
- The other scripts (`1-cataLogFeedGoesHere.py`, `1-openSheet.py`, `3-downloadSales.py`, `daily.py`) are not modelled. They are browser export, file download and upload, and scheduling.
- `Dispatch.ProcessTab`: the list of tab names and the main loop over tabs are reduced to one tab at a time. The tab loop's only effect on this model is the cursor reset, which `ProcessTab` performs.

=== FILE: dispatch.dfy ===
/**
 Status dispatch for one purchase order, and the loop over the orders of one
 sheet tab that owns the partial-receipt cursor.
 */
module Dispatch {
  import opened Text
  import opened Grid
  import opened Items
  import opened RowIndex
  import Received
  import Partial

  /** The order's status cell, as a closed variant with a case for any other text. */
  datatype Status = Pending | PartiallyReceived | Received | Unrecognized(text: string)

  /** The stripped status text looked up among the three handled labels, exactly (case matters). */
  function StatusOf(text: string): (st: Status)
    ensures st == Pending <==> Strip(text) == "Pending"
    ensures st == PartiallyReceived <==> Strip(text) == "Partially Received"
    ensures st == Received <==> Strip(text) == "Received"
    ensures st.Unrecognized? ==> st.text == Strip(text)
  {
    var t := Strip(text);
    if t == "Pending" then Pending
    else if t == "Partially Received" then PartiallyReceived
    else if t == "Received" then Received
    else Unrecognized(t)
  }

  /** Surrounding whitespace in the status cell does not change the handler chosen. */
  lemma StatusIgnoresSurroundingSpace(text: string)
    ensures StatusOf(Strip(text)) == StatusOf(text)
  {
    StripIdempotent(text);
  }

  /** The labels are compared with case: a lower-case "received" selects no handler. */
  lemma StatusCaseMatters()
    ensures StatusOf("received") == Unrecognized("received")
    ensures StatusOf("partially received") == Unrecognized("partially received")
  {
    StripOfTrimmed("received");
    StripOfTrimmed("partially received");
  }

  /** The rows a log lists as selected: the whole buckets consumed and the single rows taken. */
  ghost function SelectedRows(log: seq<Outcome>): set<int> {
    Received.ConsumedRows(log) + set x | x in MatchedRows(log)
  }

  lemma SelectedRowsAppend(a: seq<Outcome>, b: seq<Outcome>)
    ensures SelectedRows(a + b) == SelectedRows(a) + SelectedRows(b)
  {
    Received.ConsumedRowsAppend(a, b);
    MatchedRowsAppend(a, b);
    var ma, mb := MatchedRows(a), MatchedRows(b);
    assert (set x | x in ma + mb) == (set x | x in ma) + (set x | x in mb);
  }

  lemma SelectedWithoutTakes(log: seq<Outcome>)
    requires MatchedRows(log) == []
    ensures SelectedRows(log) == Received.ConsumedRows(log)
  {
  }

  lemma SelectedWithoutBuckets(log: seq<Outcome>)
    requires Received.ConsumedRows(log) == {}
    ensures SelectedRows(log) == set x | x in MatchedRows(log)
  {
  }

  /** Every row in `rows` has a non-blank quantity in `g`. */
  ghost predicate OpenIn(g: Sheet, rows: set<int>) {
    forall x :: x in rows ==> Strip(Cell(g, x, QtyCol)) != []
  }

  /** Every row in `rows` has an empty quantity in `h`. */
  ghost predicate ClearedIn(h: Sheet, rows: set<int>) {
    forall x :: x in rows ==> Cell(h, x, QtyCol) == ""
  }

  /** What handling one order leaves behind: sheet, cursor, return value, per-item outcomes. */
  datatype OrderResult = OrderResult(sheet: Sheet, cursor: int, ok: bool, log: seq<Outcome>)

  /** `handle_order_status`: route the order to the handler its status names. */
  function HandleOrder(g: Sheet, cursor: int, statusText: string, raw: seq<LineItem>, parse: Parser): (res: OrderResult)
    requires 1 <= cursor
    // Pending and unrecognized statuses write nothing and report false.
    ensures StatusOf(statusText).Pending? || StatusOf(statusText).Unrecognized? ==>
              res == OrderResult(g, cursor, false, [])
    // The full-receipt handler leaves the cursor alone.
    ensures StatusOf(statusText).Received? ==>
              && res.cursor == cursor
              && (res.ok <==> Received.SnapshotParses(g, parse) && forall i :: 0 <= i < |raw| ==> !Received.Overflows(Scrape(raw[i]), parse))
    // The partial-receipt handler always reports true and handles every item.
    ensures StatusOf(statusText).PartiallyReceived? ==> res.ok && |res.log| == |raw|
    ensures cursor <= res.cursor
    ensures var rows := MatchedRows(res.log);
              && Increasing(rows)
              && (forall x :: x in rows ==> cursor <= x < res.cursor)
              && (rows == [] <==> res.cursor == cursor)
    ensures OpenRowsOnly(g, res.sheet)
    // Only F and G of the rows the order consumed or took change.
    ensures WritesOnly(g, res.sheet, SelectedRows(res.log))
    // A row the order selects was open when the order began and ends with an empty quantity.
    ensures OpenIn(g, SelectedRows(res.log)) && ClearedIn(res.sheet, SelectedRows(res.log))
    // The two receipt labels reach their handlers.
    ensures StatusOf(statusText).Received? ==> res == ReceivedOrder(g, cursor, raw, parse)
    ensures StatusOf(statusText).PartiallyReceived? ==> res == PartialOrder(g, cursor, raw)
  {
    match StatusOf(statusText)
    case Pending => OrderResult(g, cursor, false, [])
    case Unrecognized(_) => OrderResult(g, cursor, false, [])
    case Received =>
      var r := ReceivedOrder(g, cursor, raw, parse);
      SelectedWithoutTakes(r.log);
      r
    case PartiallyReceived =>
      var r := PartialOrder(g, cursor, raw);
      SelectedWithoutBuckets(r.log);
      r
  }

  /** The full-receipt handler, with the cursor passed through untouched. */
  function ReceivedOrder(g: Sheet, cursor: int, raw: seq<LineItem>, parse: Parser): (res: OrderResult)
    ensures res.cursor == cursor
    // True exactly when no snapshot cell and no scraped quantity overflows the parse.
    ensures res.ok <==> Received.SnapshotParses(g, parse) && forall i :: 0 <= i < |raw| ==> !Received.Overflows(Scrape(raw[i]), parse)
    ensures |res.log| <= |raw|
    // Every item is handled on success; otherwise the loop stopped at the first overflowing item.
    ensures res.ok ==> |res.log| == |raw|
    ensures Received.SnapshotParses(g, parse) && !res.ok ==>
              |res.log| < |raw| && Received.Overflows(Scrape(raw[|res.log|]), parse)
    ensures forall i :: 0 <= i < |res.log| ==> !Received.Overflows(Scrape(raw[i]), parse)
    // An overflowing snapshot cell writes nothing and handles no item.
    ensures !Received.SnapshotParses(g, parse) ==> res.sheet == g && res.log == []
    ensures forall i :: 0 <= i < |res.log| ==> Received.OutcomeOnSnapshot(g, parse, ScrapeAll(raw), res.log, i)
    ensures Received.Settled(res.sheet, ScrapeAll(raw), res.log, parse)
    ensures MatchedRows(res.log) == []
    ensures OpenRowsOnly(g, res.sheet)
    ensures WritesOnly(g, res.sheet, Received.ConsumedRows(res.log))
    ensures forall x :: x in Received.ConsumedRows(res.log) ==>
              Strip(Cell(g, x, QtyCol)) != [] && Cell(res.sheet, x, QtyCol) == ""
  {
    var r := Received.ProcessReceived(g, raw, parse);
    OrderResult(r.sheet, cursor, r.ok, r.log)
  }

  /** The partial-receipt handler, handing back the advanced cursor. */
  function PartialOrder(g: Sheet, cursor: int, raw: seq<LineItem>): (res: OrderResult)
    requires 1 <= cursor
    ensures res.ok && |res.log| == |raw|
    ensures Partial.FirstFits(g, cursor, ScrapeAll(raw), res.log, Partial.ScanEnd(g))
    ensures Partial.Settled(res.sheet, ScrapeAll(raw), res.log)
    ensures cursor <= res.cursor
    ensures var rows := MatchedRows(res.log);
              && Increasing(rows)
              && (forall x :: x in rows ==> cursor <= x < res.cursor)
              && (rows == [] <==> res.cursor == cursor)
    // The cursor handed on is one past the last row taken, and no row past the scan end is taken.
    ensures var rows := MatchedRows(res.log);
              && (rows != [] ==> res.cursor == rows[|rows| - 1] + 1)
              && (forall x :: x in rows ==> x <= Partial.ScanEnd(g))
    ensures OpenRowsOnly(g, res.sheet)
    ensures WritesOnly(g, res.sheet, set x | x in MatchedRows(res.log))
    ensures Received.ConsumedRows(res.log) == {}
    ensures forall x :: x in MatchedRows(res.log) ==>
              Strip(Cell(g, x, QtyCol)) != [] && Cell(res.sheet, x, QtyCol) == ""
  {
    var r := Partial.ProcessPartial(g, cursor, raw);
    PartialOpenRows(g, r.sheet, MatchedRows(r.log));
    OrderResult(r.sheet, r.cursor, r.ok, r.log)
  }

  lemma PartialOpenRows(g: Sheet, h: Sheet, rows: seq<int>)
    requires WritesOnly(g, h, set x | x in rows)
    requires forall x :: x in rows ==> Strip(Cell(g, x, QtyCol)) != []
    ensures OpenRowsOnly(g, h)
  {
  }

  /** What the dashboard shows for one order: its status text and its line items. */
  datatype Page = Page(status: string, items: seq<LineItem>)

  /** The order numbers of a tab: column M from row 2 down to its last non-empty cell. */
  function OrderNumbers(g: Sheet): (ns: seq<string>)
    ensures |ns| == if ColumnLength(g, OrderCol) < 2 then 0 else ColumnLength(g, OrderCol) - 1
    ensures forall i :: 0 <= i < |ns| ==> ns[i] == Cell(g, i + 2, OrderCol)
  {
    var n := ColumnLength(g, OrderCol);
    if n < 2 then [] else seq(n - 1, i requires 0 <= i < n - 1 => Cell(g, i + 2, OrderCol))
  }

  /**
   Every order number in column M at row 2 or below is listed at its row's
   position, and the list stops at the last non-empty cell of the column.
   */
  lemma OrderNumbersCover(g: Sheet)
    ensures forall r :: 2 <= r && Cell(g, r, OrderCol) != "" ==>
              r - 2 < |OrderNumbers(g)| && OrderNumbers(g)[r - 2] == Cell(g, r, OrderCol)
    ensures OrderNumbers(g) != [] ==> OrderNumbers(g)[|OrderNumbers(g)| - 1] != ""
  {
    var n := ColumnLength(g, OrderCol);
    forall r | 2 <= r && Cell(g, r, OrderCol) != ""
      ensures r - 2 < |OrderNumbers(g)| && OrderNumbers(g)[r - 2] == Cell(g, r, OrderCol)
    {
      assert r <= n;
    }
  }

  /** A tab's result: the sheet, the cursor, every outcome in order, and the outcomes of each handled order. */
  datatype TabRun = TabRun(sheet: Sheet, cursor: int, log: seq<Outcome>, orders: seq<seq<Outcome>>)

  /** The per-order logs joined in order. */
  function Concat(logs: seq<seq<Outcome>>): seq<Outcome> {
    if logs == [] then [] else logs[0] + Concat(logs[1..])
  }

  /** How many order numbers from position `pos` on are non-empty. */
  function Listed(numbers: seq<string>, pos: nat): nat
    decreases |numbers| - pos
  {
    if pos >= |numbers| then 0
    else (if numbers[pos] == [] then 0 else 1) + Listed(numbers, pos + 1)
  }

  /**
   `check_order_status` from position `pos` on: orders with an empty number
   are skipped, every other one is looked up on the dashboard (`observe`) and
   handled, the cursor carried from one order to the next.
   */
  function ProcessOrders(g: Sheet, cursor: int, numbers: seq<string>, pos: nat,
                         observe: (nat, string) -> Page, parse: Parser): (run: TabRun)
    requires 1 <= cursor
    ensures cursor <= run.cursor
    ensures var rows := MatchedRows(run.log);
              && Increasing(rows)
              && (forall x :: x in rows ==> cursor <= x < run.cursor)
    ensures OpenRowsOnly(g, run.sheet)
    // One log per non-empty order number, joined in order into the tab's log.
    ensures |run.orders| == Listed(numbers, pos) && run.log == Concat(run.orders)
    // Only F and G of the rows the orders selected change.
    ensures WritesOnly(g, run.sheet, SelectedRows(run.log))
    // Each order's rows were open when the tab began and end with an empty quantity,
    ensures forall k :: 0 <= k < |run.orders| ==>
              OpenIn(g, SelectedRows(run.orders[k])) && ClearedIn(run.sheet, SelectedRows(run.orders[k]))
    // so no row one order selected is selected again by a later order.
    ensures forall k, l :: 0 <= k < l < |run.orders| ==> SelectedRows(run.orders[k]) !! SelectedRows(run.orders[l])
    decreases |numbers| - pos
  {
    if pos >= |numbers| then TabRun(g, cursor, [], [])
    else if numbers[pos] == [] then
      ProcessOrders(g, cursor, numbers, pos + 1, observe, parse)
    else
      var page := observe(pos, numbers[pos]);
      var o := HandleOrder(g, cursor, page.status, page.items, parse);
      var rest := ProcessOrders(o.sheet, o.cursor, numbers, pos + 1, observe, parse);
      OrderThenRest(g, cursor, o, rest);
      OrderThenRestFrame(g, o, rest);
      OrderThenRestOpen(g, o, rest);
      OrderThenRestApart(o, rest);
      TabRun(rest.sheet, rest.cursor, o.log + rest.log, [o.log] + rest.orders)
  }

  lemma OrderThenRest(g: Sheet, cursor: int, o: OrderResult, rest: TabRun)
    requires cursor <= o.cursor <= rest.cursor
    requires Increasing(MatchedRows(o.log)) && forall x :: x in MatchedRows(o.log) ==> cursor <= x < o.cursor
    requires Increasing(MatchedRows(rest.log)) && forall x :: x in MatchedRows(rest.log) ==> o.cursor <= x < rest.cursor
    requires OpenRowsOnly(g, o.sheet) && OpenRowsOnly(o.sheet, rest.sheet)
    ensures var rows := MatchedRows(o.log + rest.log);
              && Increasing(rows)
              && (forall x :: x in rows ==> cursor <= x < rest.cursor)
    ensures OpenRowsOnly(g, rest.sheet)
  {
    OpenRowsOnlyTrans(g, o.sheet, rest.sheet);
    MatchedRowsAppend(o.log, rest.log);
    var a := MatchedRows(o.log);
    var b := MatchedRows(rest.log);
    var rows := a + b;
    forall i, j | 0 <= i < j < |rows|
      ensures rows[i] < rows[j]
    {
      if j < |a| {
        assert rows[i] == a[i] && rows[j] == a[j];
      } else if i >= |a| {
        assert rows[i] == b[i - |a|] && rows[j] == b[j - |a|];
      } else {
        assert rows[i] == a[i] && rows[j] == b[j - |a|];
        assert a[i] in a && b[j - |a|] in b;
      }
    }
  }

  /** One order's writes followed by the later orders' stay within the rows all of them selected. */
  lemma OrderThenRestFrame(g: Sheet, o: OrderResult, rest: TabRun)
    requires WritesOnly(g, o.sheet, SelectedRows(o.log))
    requires rest.log == Concat(rest.orders)
    requires WritesOnly(o.sheet, rest.sheet, SelectedRows(rest.log))
    ensures o.log + rest.log == Concat([o.log] + rest.orders)
    ensures WritesOnly(g, rest.sheet, SelectedRows(o.log + rest.log))
  {
    assert ([o.log] + rest.orders)[1..] == rest.orders;
    SelectedRowsAppend(o.log, rest.log);
    WritesOnlyTrans(g, o.sheet, rest.sheet, SelectedRows(o.log), SelectedRows(rest.log));
  }

  /** A row whose quantity is empty is not open, so cleared rows and open rows are apart. */
  lemma ClearedApartFromOpen(h: Sheet, a: set<int>, b: set<int>)
    requires ClearedIn(h, a) && OpenIn(h, b)
    ensures a !! b
  {
    forall x | x in a
      ensures x !in b
    {
      assert Cell(h, x, QtyCol) == "";
      assert Strip("") == [];
    }
  }

  /** A row open after writes confined to open rows was already open before them. */
  lemma OpenBefore(g: Sheet, h: Sheet, rows: set<int>)
    requires OpenRowsOnly(g, h) && OpenIn(h, rows)
    ensures OpenIn(g, rows)
  {
    forall x | x in rows
      ensures Strip(Cell(g, x, QtyCol)) != []
    {
      if Cell(h, x, QtyCol) == Cell(g, x, QtyCol) {
        assert Strip(Cell(h, x, QtyCol)) != [];
      }
    }
  }

  /** Writes confined to open rows leave a cleared row cleared. */
  lemma StaysCleared(h: Sheet, h': Sheet, rows: set<int>)
    requires OpenRowsOnly(h, h') && ClearedIn(h, rows)
    ensures ClearedIn(h', rows)
  {
    forall x | x in rows
      ensures Cell(h', x, QtyCol) == ""
    {
      assert Cell(h, x, QtyCol) == "";
      assert Strip("") == [];
    }
  }

  /**
   Each order's rows were open when the tab began and are cleared at its end:
   the first order's because the later orders write only open rows, the later
   orders' because the first order wrote only open rows.
   */
  lemma OrderThenRestOpen(g: Sheet, o: OrderResult, rest: TabRun)
    requires OpenIn(g, SelectedRows(o.log)) && ClearedIn(o.sheet, SelectedRows(o.log))
    requires OpenRowsOnly(g, o.sheet) && OpenRowsOnly(o.sheet, rest.sheet)
    requires forall k :: 0 <= k < |rest.orders| ==>
               OpenIn(o.sheet, SelectedRows(rest.orders[k])) && ClearedIn(rest.sheet, SelectedRows(rest.orders[k]))
    ensures var orders := [o.log] + rest.orders;
              forall k :: 0 <= k < |orders| ==>
                OpenIn(g, SelectedRows(orders[k])) && ClearedIn(rest.sheet, SelectedRows(orders[k]))
  {
    var orders := [o.log] + rest.orders;
    StaysCleared(o.sheet, rest.sheet, SelectedRows(o.log));
    forall k | 0 < k < |orders|
      ensures OpenIn(g, SelectedRows(orders[k])) && ClearedIn(rest.sheet, SelectedRows(orders[k]))
    {
      assert orders[k] == rest.orders[k - 1];
      OpenBefore(g, o.sheet, SelectedRows(orders[k]));
    }
  }

  /**
   The rows one order selected have an empty quantity when the later orders
   begin, and the later orders select only rows whose quantity is then
   non-blank, so they never select those rows again.
   */
  lemma OrderThenRestApart(o: OrderResult, rest: TabRun)
    requires ClearedIn(o.sheet, SelectedRows(o.log))
    requires forall k :: 0 <= k < |rest.orders| ==> OpenIn(o.sheet, SelectedRows(rest.orders[k]))
    requires forall k, l :: 0 <= k < l < |rest.orders| ==> SelectedRows(rest.orders[k]) !! SelectedRows(rest.orders[l])
    ensures var orders := [o.log] + rest.orders;
              forall k, l :: 0 <= k < l < |orders| ==> SelectedRows(orders[k]) !! SelectedRows(orders[l])
  {
    var orders := [o.log] + rest.orders;
    forall k, l | 0 <= k < l < |orders|
      ensures SelectedRows(orders[k]) !! SelectedRows(orders[l])
    {
      assert orders[l] == rest.orders[l - 1];
      if k == 0 {
        ClearedApartFromOpen(o.sheet, SelectedRows(o.log), SelectedRows(orders[l]));
      } else {
        assert orders[k] == rest.orders[k - 1];
      }
    }
  }

  /**
   One sheet tab, with the cursor reset to row 2 first: rows taken by partial
   receipts across all orders of the tab are strictly ascending (so no row is
   taken twice), the only cells that change are columns F and G of rows the
   orders selected, and no order selects a row an earlier order selected.
   */
  function ProcessTab(g: Sheet, observe: (nat, string) -> Page, parse: Parser): (run: TabRun)
    ensures Partial.FirstDataRow <= run.cursor
    ensures var rows := MatchedRows(run.log);
              && Increasing(rows)
              && (forall x :: x in rows ==> Partial.FirstDataRow <= x < run.cursor)
    ensures OpenRowsOnly(g, run.sheet)
    ensures |run.orders| == Listed(OrderNumbers(g), 0) && run.log == Concat(run.orders)
    ensures WritesOnly(g, run.sheet, SelectedRows(run.log))
    // No row selected by one order of the tab is selected by a later one.
    ensures forall k, l :: 0 <= k < l < |run.orders| ==> SelectedRows(run.orders[k]) !! SelectedRows(run.orders[l])
  {
    ProcessOrders(g, Partial.FirstDataRow, OrderNumbers(g), 0, observe, parse)
  }

  /**
   An item still awaiting receipt, or with an empty quantity, is never matched
   and writes nothing on either path; only the reason recorded differs, because
   the two handlers make the two tests in opposite orders.
   */
  lemma SkippedOnEitherPath(g: Sheet, idx: Index, cursor: int, last: int, it: LineItem, parse: Parser)
    requires RowsPositive(idx) && 1 <= cursor
    requires AwaitingReceipt(it) || it.qty == []
    ensures var res := Received.ReceiveItem(g, idx, it, parse);
      && res.Handled? && res.sheet == g && res.index == idx
      && res.outcome == (if AwaitingReceipt(it) then SkippedAwaiting else SkippedEmptyQty)
    ensures var s := Partial.PartialItem(g, cursor, it, last);
      && s.sheet == g && s.cursor == cursor
      && s.outcome == (if it.qty == [] then SkippedEmptyQty else SkippedAwaiting)
  {
  }

  /** Pending and any unrecognized status text write nothing, keep the cursor and report false. */
  lemma PendingAndUnknownWriteNothing(g: Sheet, cursor: int, statusText: string, raw: seq<LineItem>, parse: Parser)
    requires 1 <= cursor
    requires Strip(statusText) != "Received" && Strip(statusText) != "Partially Received"
    ensures HandleOrder(g, cursor, statusText, raw, parse) == OrderResult(g, cursor, false, [])
  {
  }
}

=== FILE: grid.dfy ===
/**
 One worksheet tab as an in-memory grid of cell texts. Rows and columns are
 1-based as in the spreadsheet API; any cell outside the stored rows or past
 the end of a stored row reads as the empty text, so a finite sequence of
 rows stands for the whole (unbounded) grid.
 */
module Grid {
  import opened Text

  type Row = seq<string>
  type Sheet = seq<Row>

  /** Column A: the product name. */
  const NameCol := 1
  /** Column F: the notes column that receives the moved quantity. */
  const NotesCol := 6
  /** Column G: the quantity still awaiting receipt. */
  const QtyCol := 7
  /** Column M: the purchase-order number. */
  const OrderCol := 13

  /** The text of cell (r, c). */
  function Cell(g: Sheet, r: int, c: int): string {
    if 1 <= r <= |g| && 1 <= c <= |g[r - 1]| then g[r - 1][c - 1] else ""
  }

  /** `s` extended with `fill` up to length `n` (unchanged when already long enough). */
  function Pad<T>(s: seq<T>, n: nat, fill: T): (p: seq<T>)
    ensures |p| == if |s| < n then n else |s|
    ensures forall i :: 0 <= i < |s| ==> p[i] == s[i]
    ensures forall i :: |s| <= i < |p| ==> p[i] == fill
  {
    if |s| < n then s + seq(n - |s|, _ => fill) else s
  }

  /** `update_cell(r, c, v)`: cell (r, c) reads `v` afterwards, every other cell is unchanged. */
  function SetCell(g: Sheet, r: int, c: int, v: string): (h: Sheet)
    requires 1 <= r && 1 <= c
    ensures Cell(h, r, c) == v
    ensures forall r', c' :: (r' != r || c' != c) ==> Cell(h, r', c') == Cell(g, r', c')
  {
    var rows := Pad(g, r, []);
    var row := Pad(rows[r - 1], c, "");
    rows[r - 1 := row[c - 1 := v]]
  }

  /** Every cell that differs between `g` and `h` lies in column F or G of a row in `rows`. */
  ghost predicate WritesOnly(g: Sheet, h: Sheet, rows: set<int>) {
    forall r, c :: Cell(h, r, c) != Cell(g, r, c) ==> r in rows && (c == NotesCol || c == QtyCol)
  }

  lemma WritesOnlyTrans(g1: Sheet, g2: Sheet, g3: Sheet, a: set<int>, b: set<int>)
    requires WritesOnly(g1, g2, a) && WritesOnly(g2, g3, b)
    ensures WritesOnly(g1, g3, a + b)
  {
    forall r, c | Cell(g3, r, c) != Cell(g1, r, c)
      ensures r in a + b && (c == NotesCol || c == QtyCol)
    {
      if Cell(g2, r, c) == Cell(g1, r, c) {
        assert Cell(g3, r, c) != Cell(g2, r, c);
      }
    }
  }

  lemma WritesOnlyWeaken(g: Sheet, h: Sheet, a: set<int>, b: set<int>)
    requires WritesOnly(g, h, a) && a <= b
    ensures WritesOnly(g, h, b)
  {
  }

  /**
   Every cell that differs between `g` and `h` lies in column F or G of a row
   whose quantity cell in `g` was not blank: column A and every other column
   stay as they were, and a row whose quantity was already cleared is left alone.
   */
  ghost predicate OpenRowsOnly(g: Sheet, h: Sheet) {
    forall r, c :: Cell(h, r, c) != Cell(g, r, c) ==>
      (c == NotesCol || c == QtyCol) && Strip(Cell(g, r, QtyCol)) != []
  }

  lemma OpenRowsOnlyTrans(g1: Sheet, g2: Sheet, g3: Sheet)
    requires OpenRowsOnly(g1, g2) && OpenRowsOnly(g2, g3)
    ensures OpenRowsOnly(g1, g3)
  {
    forall r, c | Cell(g3, r, c) != Cell(g1, r, c)
      ensures (c == NotesCol || c == QtyCol) && Strip(Cell(g1, r, QtyCol)) != []
    {
      if Cell(g2, r, c) == Cell(g1, r, c) {
        assert Cell(g3, r, c) != Cell(g2, r, c);
        if Cell(g2, r, QtyCol) != Cell(g1, r, QtyCol) {
          assert Strip(Cell(g1, r, QtyCol)) != [];
        }
      }
    }
  }

  /**
   The write pair both handlers issue on a match: the notes column gets `notes`
   and the quantity column is cleared.
   */
  function MoveQty(g: Sheet, r: int, notes: string): (h: Sheet)
    requires 1 <= r
    ensures Cell(h, r, NotesCol) == notes
    ensures Cell(h, r, QtyCol) == ""
    ensures WritesOnly(g, h, {r})
  {
    SetCell(SetCell(g, r, NotesCol, notes), r, QtyCol, "")
  }

  /** `MoveQty` on every row of `rows`, in order. */
  function MoveAll(g: Sheet, rows: seq<int>, notes: string): (h: Sheet)
    requires forall i :: 0 <= i < |rows| ==> 1 <= rows[i]
    ensures forall r :: r in rows ==> Cell(h, r, NotesCol) == notes && Cell(h, r, QtyCol) == ""
    ensures WritesOnly(g, h, set x | x in rows)
    decreases |rows|
  {
    if rows == [] then g
    else
      var g' := MoveQty(g, rows[0], notes);
      var h := MoveAll(g', rows[1..], notes);
      MoveAllStep(g, g', h, rows, notes);
      h
  }

  lemma MoveAllStep(g: Sheet, g': Sheet, h: Sheet, rows: seq<int>, notes: string)
    requires |rows| > 0 && 1 <= rows[0]
    requires g' == MoveQty(g, rows[0], notes)
    requires forall r :: r in rows[1..] ==> Cell(h, r, NotesCol) == notes && Cell(h, r, QtyCol) == ""
    requires WritesOnly(g', h, set x | x in rows[1..])
    ensures forall r :: r in rows ==> Cell(h, r, NotesCol) == notes && Cell(h, r, QtyCol) == ""
    ensures WritesOnly(g, h, set x | x in rows)
  {
    var tail := set x | x in rows[1..];
    WritesOnlyTrans(g, g', h, {rows[0]}, tail);
    assert {rows[0]} + tail == set x | x in rows by {
      assert rows == [rows[0]] + rows[1..];
    }
    if rows[0] !in rows[1..] {
      assert Cell(h, rows[0], NotesCol) == Cell(g', rows[0], NotesCol);
      assert Cell(h, rows[0], QtyCol) == Cell(g', rows[0], QtyCol);
    }
    forall r | r in rows
      ensures Cell(h, r, NotesCol) == notes && Cell(h, r, QtyCol) == ""
    {
      if r != rows[0] {
        assert r in rows[1..] by {
          assert rows == [rows[0]] + rows[1..];
        }
      }
    }
  }

  /**
   `len(col_values(c))`: the index of the last non-empty cell of column `c`,
   or 0 when the column is empty.
   */
  function ColumnLength(g: Sheet, c: int): (n: nat)
    ensures n <= |g|
    ensures n > 0 ==> Cell(g, n, c) != ""
    ensures forall r :: n < r ==> Cell(g, r, c) == ""
  {
    LastFilled(g, c, |g|)
  }

  function LastFilled(g: Sheet, c: int, k: nat): (n: nat)
    requires k <= |g|
    ensures n <= k
    ensures n > 0 ==> Cell(g, n, c) != ""
    ensures forall r :: n < r <= k ==> Cell(g, r, c) == ""
  {
    if k == 0 then 0 else if Cell(g, k, c) != "" then k else LastFilled(g, c, k - 1)
  }
}

=== FILE: items.dfy ===
/**
 Line items read off a purchase order's detail view, and what became of each
 one during reconciliation.
 */
module Items {
  import opened Text

  datatype Option<T> = None | Some(value: T)

  /** One line of the purchase-order detail view: name, quantity and line status texts. */
  datatype LineItem = LineItem(name: string, qty: string, status: string)

  /** The three texts as the page scraper hands them over: each one stripped. */
  function Scrape(raw: LineItem): (it: LineItem)
    ensures Strip(it.name) == it.name && Strip(it.qty) == it.qty && Strip(it.status) == it.status
    ensures it.qty == [] <==> AllSpace(raw.qty)
  {
    StripIdempotent(raw.name);
    StripIdempotent(raw.qty);
    StripIdempotent(raw.status);
    StripMeaning(raw.qty);
    LineItem(Strip(raw.name), Strip(raw.qty), Strip(raw.status))
  }

  function ScrapeAll(raw: seq<LineItem>): (items: seq<LineItem>)
    ensures |items| == |raw|
    ensures forall i :: 0 <= i < |raw| ==> items[i] == Scrape(raw[i])
  {
    seq(|raw|, i requires 0 <= i < |raw| => Scrape(raw[i]))
  }

  /** The line still shows its "Receive" link: the goods have not arrived yet. */
  predicate AwaitingReceipt(it: LineItem) {
    Lower(it.status) == "receive"
  }

  /** What reconciliation did with one line item. */
  datatype Outcome =
    | SkippedAwaiting
    | SkippedEmptyQty
    | SkippedInvalidQty
    | NoMatch
      /** Full-receipt path: every row of the key's bucket was updated. */
    | BucketMatched(rows: seq<int>)
      /** Partial-receipt path: the single row found from the cursor onwards. */
    | RowMatched(row: int)

  /** The rows taken by the partial-receipt path, in the order they were taken. */
  function MatchedRows(log: seq<Outcome>): (rows: seq<int>)
    ensures |rows| <= |log|
    ensures forall x :: x in rows <==> RowMatched(x) in log
  {
    if log == [] then []
    else
      var rest := MatchedRows(log[1..]);
      assert log == [log[0]] + log[1..];
      if log[0].RowMatched? then [log[0].row] + rest else rest
  }

  lemma {:induction false} MatchedRowsAppend(a: seq<Outcome>, b: seq<Outcome>)
    ensures MatchedRows(a + b) == MatchedRows(a) + MatchedRows(b)
    decreases |a|
  {
    if a != [] {
      assert (a + b)[0] == a[0];
      assert (a + b)[1..] == a[1..] + b;
      MatchedRowsAppend(a[1..], b);
    } else {
      assert a + b == b;
    }
  }

  predicate Increasing(s: seq<int>) {
    forall i, j :: 0 <= i < j < |s| ==> s[i] < s[j]
  }
}

=== FILE: partial.dfy ===
/**
 The "Partially Received" handler: each line item takes the first matching
 row at or after a forward-only cursor, which is shared by every order of one
 sheet tab. The cursor is threaded through explicitly instead of being a
 process-wide variable.
 */
module Partial {
  import opened Text
  import opened Grid
  import opened Items

  /** Where the cursor stands at the start of every tab: the first row under the header. */
  const FirstDataRow := 2

  /**
   Row `r` carries the item: stripped, lower-cased column A equals the item's
   lower-cased name, and stripped column G equals the stripped item quantity,
   as texts (no numeric parse on this path, so "2.0" and "2" differ).
   */
  predicate RowMatches(g: Sheet, it: LineItem, r: int) {
    && Lower(Strip(Cell(g, r, NameCol))) == Lower(it.name)
    && Strip(Cell(g, r, QtyCol)) == Strip(it.qty)
  }

  /** The scan `for r in range(from, last + 1)`: the least matching row, if any. */
  function FirstFit(g: Sheet, it: LineItem, from: int, last: int): (found: Option<int>)
    ensures found.Some? ==>
              && from <= found.value <= last
              && RowMatches(g, it, found.value)
              && forall r :: from <= r < found.value ==> !RowMatches(g, it, r)
    ensures found.None? ==> forall r :: from <= r <= last ==> !RowMatches(g, it, r)
    decreases last - from
  {
    if from > last then None
    else if RowMatches(g, it, from) then Some(from)
    else FirstFit(g, it, from + 1, last)
  }

  datatype Step = Step(sheet: Sheet, cursor: int, outcome: Outcome)

  /** One line item against the sheet, scanning rows `cursor..last`. */
  function PartialItem(g: Sheet, cursor: int, it: LineItem, last: int): (s: Step)
    requires 1 <= cursor
    // The empty-quantity test comes first, then the status test.
    ensures it.qty == [] ==> s == Step(g, cursor, SkippedEmptyQty)
    ensures it.qty != [] && AwaitingReceipt(it) ==> s == Step(g, cursor, SkippedAwaiting)
    ensures s.outcome.SkippedEmptyQty? || s.outcome.SkippedAwaiting? || s.outcome.NoMatch? || s.outcome.RowMatched?
    ensures s.outcome.NoMatch? ==>
              && s.sheet == g && s.cursor == cursor
              && forall r :: cursor <= r <= last ==> !RowMatches(g, it, r)
    ensures s.outcome.RowMatched? ==>
              var r := s.outcome.row;
              && it.qty != [] && !AwaitingReceipt(it)
              && cursor <= r <= last
              && RowMatches(g, it, r)
              && (forall r' :: cursor <= r' < r ==> !RowMatches(g, it, r'))
              && s.cursor == r + 1
              && Cell(s.sheet, r, NotesCol) == it.qty
              && Cell(s.sheet, r, QtyCol) == ""
              && WritesOnly(g, s.sheet, {r})
  {
    if it.qty == [] then Step(g, cursor, SkippedEmptyQty)
    else if AwaitingReceipt(it) then Step(g, cursor, SkippedAwaiting)
    else match FirstFit(g, it, cursor, last)
      case None => Step(g, cursor, NoMatch)
      case Some(r) => Step(MoveQty(g, r, it.qty), r + 1, RowMatched(r))
  }

  /** Where the cursor stands after the outcomes in `log`: one past the last row taken, or where it started. */
  function CursorAfter(cursor: int, log: seq<Outcome>): int {
    var rows := MatchedRows(log);
    if rows == [] then cursor else rows[|rows| - 1] + 1
  }

  /**
   The outcome first-fit gives item `it` on sheet `g` with the scan starting
   at `from`: the skips in this path's order (empty quantity first), else the
   least matching row in `[from, last]`, else no match.
   */
  ghost predicate FitsItem(g: Sheet, it: LineItem, from: int, last: int, o: Outcome) {
    if it.qty == [] then o == SkippedEmptyQty
    else if AwaitingReceipt(it) then o == SkippedAwaiting
    else match o
      case NoMatch => forall r :: from <= r <= last ==> !RowMatches(g, it, r)
      case RowMatched(r) =>
        && from <= r <= last
        && RowMatches(g, it, r)
        && forall r' :: from <= r' < r ==> !RowMatches(g, it, r')
      case _ => false
  }

  /**
   Every item's outcome is first-fit on the sheet as it was before the order,
   scanning from where the earlier items left the cursor.
   */
  ghost predicate FirstFits(g: Sheet, cursor: int, items: seq<LineItem>, log: seq<Outcome>, last: int)
    requires |log| == |items|
  {
    forall i {:trigger FitsItem(g, items[i], CursorAfter(cursor, log[..i]), last, log[i])} ::
      0 <= i < |items| ==> FitsItem(g, items[i], CursorAfter(cursor, log[..i]), last, log[i])
  }

  /** Every row taken ends with its item's quantity text in F and an empty G. */
  ghost predicate Settled(h: Sheet, items: seq<LineItem>, log: seq<Outcome>)
    requires |log| == |items|
  {
    forall i :: 0 <= i < |items| && log[i].RowMatched? ==>
      Cell(h, log[i].row, NotesCol) == items[i].qty && Cell(h, log[i].row, QtyCol) == ""
  }

  /**
   The rows taken, in order, ascend strictly and lie in `[cursor, end)` and
   at or under `last`; `end` is one past the last of them, or `cursor` when
   none was taken; and only F and G of taken rows differ between `g` and `h`.
   */
  ghost predicate TakenRows(g: Sheet, h: Sheet, cursor: int, end: int, log: seq<Outcome>, last: int) {
    var rows := MatchedRows(log);
    && Increasing(rows)
    && (forall x :: x in rows ==> cursor <= x < end && x <= last)
    && (rows == [] <==> end == cursor)
    && (rows != [] ==> end == rows[|rows| - 1] + 1)
    && WritesOnly(g, h, set x | x in rows)
  }

  datatype Run = Run(sheet: Sheet, cursor: int, log: seq<Outcome>)

  /** The item loop of one order; every item is handled, none can stop the loop. */
  function PartialItems(g: Sheet, cursor: int, items: seq<LineItem>, last: int): (run: Run)
    requires 1 <= cursor
    ensures |run.log| == |items|
    ensures cursor <= run.cursor
    ensures TakenRows(g, run.sheet, cursor, run.cursor, run.log, last)
    ensures FirstFits(g, cursor, items, run.log, last)
    ensures Settled(run.sheet, items, run.log)
    ensures forall i :: 0 <= i < |run.log| ==> !run.log[i].BucketMatched?
    decreases |items|
  {
    if items == [] then Run(g, cursor, [])
    else
      var s := PartialItem(g, cursor, items[0], last);
      var rest := PartialItems(s.sheet, s.cursor, items[1..], last);
      PartialStep(g, cursor, items[0], last, s, rest.sheet, rest.cursor, rest.log);
      StepFits(g, cursor, items, last, s, rest.log);
      StepSettled(items, s, rest.sheet, rest.cursor, rest.log, last);
      Run(rest.sheet, rest.cursor, [s.outcome] + rest.log)
  }

  /** One item's take followed by the rest's keeps the taken rows ascending and confined, with the cursor past them. */
  lemma PartialStep(g: Sheet, cursor: int, it: LineItem, last: int, s: Step, h: Sheet, end: int, restLog: seq<Outcome>)
    requires 1 <= cursor && s == PartialItem(g, cursor, it, last)
    requires s.cursor <= end
    requires TakenRows(s.sheet, h, s.cursor, end, restLog, last)
    ensures TakenRows(g, h, cursor, end, [s.outcome] + restLog, last)
  {
    var tail := MatchedRows(restLog);
    MatchedRowsAppend([s.outcome], restLog);
    assert MatchedRows([s.outcome]) == if s.outcome.RowMatched? then [s.outcome.row] else [];
    if s.outcome.RowMatched? {
      StepRows(cursor, s.outcome.row, tail, end, last);
      StepFrame(g, s.sheet, h, s.outcome.row, tail);
    } else {
      assert MatchedRows([s.outcome] + restLog) == tail;
    }
  }

  /** Prepending a row below every later row keeps the taken rows ascending. */
  lemma StepRows(cursor: int, r: int, tail: seq<int>, end: int, last: int)
    requires cursor <= r <= last
    requires Increasing(tail)
    requires forall x :: x in tail ==> r + 1 <= x < end && x <= last
    requires tail == [] <==> end == r + 1
    requires tail != [] ==> end == tail[|tail| - 1] + 1
    ensures var rows := [r] + tail;
      && Increasing(rows)
      && (forall x :: x in rows ==> cursor <= x < end && x <= last)
      && end != cursor
      && end == rows[|rows| - 1] + 1
  {
    var rows := [r] + tail;
    if tail != [] {
      assert tail[|tail| - 1] in tail;
    }
    forall i, j | 0 <= i < j < |rows|
      ensures rows[i] < rows[j]
    {
      if i == 0 {
        assert rows[j] in tail;
      } else {
        assert rows[i] == tail[i - 1] && rows[j] == tail[j - 1];
      }
    }
  }

  lemma StepFrame(g: Sheet, g': Sheet, h: Sheet, r: int, tail: seq<int>)
    requires WritesOnly(g, g', {r}) && WritesOnly(g', h, set x | x in tail)
    ensures WritesOnly(g, h, set x | x in [r] + tail)
  {
    WritesOnlyTrans(g, g', h, {r}, set x | x in tail);
    assert {r} + (set x | x in tail) == set x | x in [r] + tail;
  }

  /** The cursor after one outcome and then `log` is the cursor after `log` from where that outcome left it. */
  lemma CursorAfterStep(cursor: int, o: Outcome, next: int, log: seq<Outcome>)
    requires o.RowMatched? ==> next == o.row + 1
    requires !o.RowMatched? ==> next == cursor
    ensures CursorAfter(cursor, [o] + log) == CursorAfter(next, log)
  {
    MatchedRowsAppend([o], log);
    assert MatchedRows([o]) == if o.RowMatched? then [o.row] else [];
  }

  /** Rows taken by a prefix of a log are rows taken by the log. */
  lemma PrefixRows(log: seq<Outcome>, j: int)
    requires 0 <= j <= |log|
    ensures forall x :: x in MatchedRows(log[..j]) ==> x in MatchedRows(log)
  {
    forall x | x in MatchedRows(log[..j])
      ensures x in MatchedRows(log)
    {
      var k :| 0 <= k < j && log[..j][k] == RowMatched(x);
      assert log[k] == RowMatched(x);
    }
  }

  /**
   Item `i + 1`'s scan starts at or after the cursor the first item handed
   on, and the first item changed no row there; so its outcome on the sheet
   it saw is its outcome on the sheet before the order.
   */
  lemma StepFits(g: Sheet, cursor: int, items: seq<LineItem>, last: int, s: Step, restLog: seq<Outcome>)
    requires 1 <= cursor && |items| > 0
    requires s == PartialItem(g, cursor, items[0], last)
    requires |restLog| == |items| - 1
    requires forall x :: x in MatchedRows(restLog) ==> s.cursor <= x
    requires FirstFits(s.sheet, s.cursor, items[1..], restLog, last)
    ensures FirstFits(g, cursor, items, [s.outcome] + restLog, last)
  {
    StepKeepsRowsPast(g, cursor, items[0], last, s, s.cursor);
    FirstItemFits(g, cursor, items[0], last, s);
    LaterItemsFit(g, s.sheet, cursor, s.outcome, s.cursor, items, last, restLog);
  }

  /** The first item's outcome is first-fit from the cursor it was given. */
  lemma FirstItemFits(g: Sheet, cursor: int, it: LineItem, last: int, s: Step)
    requires 1 <= cursor && s == PartialItem(g, cursor, it, last)
    ensures FitsItem(g, it, cursor, last, s.outcome)
    ensures s.outcome.RowMatched? ==> s.cursor == s.outcome.row + 1
    ensures !s.outcome.RowMatched? ==> s.cursor == cursor
  {
  }

  lemma LaterItemsFit(g: Sheet, h: Sheet, cursor: int, o: Outcome, next: int, items: seq<LineItem>, last: int, restLog: seq<Outcome>)
    requires o.RowMatched? ==> next == o.row + 1
    requires !o.RowMatched? ==> next == cursor
    requires |items| > 0 && |restLog| == |items| - 1
    requires forall x :: x in MatchedRows(restLog) ==> next <= x
    requires forall r :: next <= r ==> Cell(g, r, NameCol) == Cell(h, r, NameCol) && Cell(g, r, QtyCol) == Cell(h, r, QtyCol)
    requires FitsItem(g, items[0], cursor, last, o)
    requires FirstFits(h, next, items[1..], restLog, last)
    ensures FirstFits(g, cursor, items, [o] + restLog, last)
  {
    var log := [o] + restLog;
    forall i | 0 <= i < |items|
      ensures FitsItem(g, items[i], CursorAfter(cursor, log[..i]), last, log[i])
    {
      if i == 0 {
        assert log[..0] == [] && log[0] == o;
      } else {
        LaterItemFits(g, h, cursor, o, next, items, last, restLog, i - 1);
        assert items[i] == items[1..][i - 1] && log[..i] == ([o] + restLog)[..i] && log[i] == restLog[i - 1];
      }
    }
  }

  lemma LaterItemFits(g: Sheet, h: Sheet, cursor: int, o: Outcome, next: int, items: seq<LineItem>, last: int, restLog: seq<Outcome>, j: int)
    requires o.RowMatched? ==> next == o.row + 1
    requires !o.RowMatched? ==> next == cursor
    requires |items| > 0 && |restLog| == |items| - 1 && 0 <= j < |restLog|
    requires forall x :: x in MatchedRows(restLog) ==> next <= x
    requires forall r :: next <= r ==> Cell(g, r, NameCol) == Cell(h, r, NameCol) && Cell(g, r, QtyCol) == Cell(h, r, QtyCol)
    requires FirstFits(h, next, items[1..], restLog, last)
    ensures FitsItem(g, items[1..][j], CursorAfter(cursor, ([o] + restLog)[..j + 1]), last, restLog[j])
  {
    FirstFitsAt(h, next, items[1..], restLog, last, j);
    StepFitsAt(g, h, cursor, o, next, items[1..], last, restLog, j);
  }

  lemma FirstFitsAt(g: Sheet, cursor: int, items: seq<LineItem>, log: seq<Outcome>, last: int, i: int)
    requires |log| == |items| && 0 <= i < |items|
    requires FirstFits(g, cursor, items, log, last)
    ensures FitsItem(g, items[i], CursorAfter(cursor, log[..i]), last, log[i])
  {
  }

  lemma StepFitsAt(g: Sheet, h: Sheet, cursor: int, o: Outcome, next: int, items: seq<LineItem>, last: int, restLog: seq<Outcome>, j: int)
    requires o.RowMatched? ==> next == o.row + 1
    requires !o.RowMatched? ==> next == cursor
    requires 0 <= j < |restLog| && |items| == |restLog|
    requires forall x :: x in MatchedRows(restLog) ==> next <= x
    requires forall r :: next <= r ==> Cell(g, r, NameCol) == Cell(h, r, NameCol) && Cell(g, r, QtyCol) == Cell(h, r, QtyCol)
    requires FitsItem(h, items[j], CursorAfter(next, restLog[..j]), last, restLog[j])
    ensures FitsItem(g, items[j], CursorAfter(cursor, ([o] + restLog)[..j + 1]), last, restLog[j])
  {
    CursorShift(cursor, o, next, restLog, j);
    FitsUnchanged(g, h, items[j], CursorAfter(next, restLog[..j]), last, restLog[j]);
  }

  /** Item `j + 1` of the order starts where item `j` of the rest starts, which is at or past the first item's cursor. */
  lemma CursorShift(cursor: int, o: Outcome, next: int, restLog: seq<Outcome>, j: int)
    requires o.RowMatched? ==> next == o.row + 1
    requires !o.RowMatched? ==> next == cursor
    requires 0 <= j <= |restLog|
    requires forall x :: x in MatchedRows(restLog) ==> next <= x
    ensures CursorAfter(cursor, ([o] + restLog)[..j + 1]) == CursorAfter(next, restLog[..j])
    ensures next <= CursorAfter(next, restLog[..j])
  {
    assert ([o] + restLog)[..j + 1] == [o] + restLog[..j];
    CursorAfterStep(cursor, o, next, restLog[..j]);
    CursorAtLeast(restLog, j, next);
  }

  /** One item's step leaves every row from its new cursor on as it was. */
  lemma StepKeepsRowsPast(g: Sheet, cursor: int, it: LineItem, last: int, s: Step, from: int)
    requires 1 <= cursor && s == PartialItem(g, cursor, it, last)
    requires s.cursor <= from
    ensures forall r :: from <= r ==> Cell(g, r, NameCol) == Cell(s.sheet, r, NameCol) && Cell(g, r, QtyCol) == Cell(s.sheet, r, QtyCol)
  {
    if s.outcome.RowMatched? {
      assert WritesOnly(g, s.sheet, {s.outcome.row});
    }
  }

  /** The cursor after a prefix of the log is at least where it started when every row taken lies past it. */
  lemma CursorAtLeast(log: seq<Outcome>, j: int, cursor: int)
    requires 0 <= j <= |log|
    requires forall x :: x in MatchedRows(log) ==> cursor <= x
    ensures cursor <= CursorAfter(cursor, log[..j])
  {
    var rows := MatchedRows(log[..j]);
    if rows != [] {
      PrefixRows(log, j);
      assert rows[|rows| - 1] in rows;
    }
  }

  /** First-fit from `from` sees the same outcome on two sheets that agree in A and G from `from` on. */
  lemma FitsUnchanged(g: Sheet, h: Sheet, it: LineItem, from: int, last: int, o: Outcome)
    requires forall r :: from <= r ==> Cell(g, r, NameCol) == Cell(h, r, NameCol) && Cell(g, r, QtyCol) == Cell(h, r, QtyCol)
    requires FitsItem(h, it, from, last, o)
    ensures FitsItem(g, it, from, last, o)
  {
    assert forall r :: from <= r ==> (RowMatches(g, it, r) <==> RowMatches(h, it, r));
  }

  /** The first item's taken row is not written again, since the rest only takes rows past it. */
  lemma StepSettled(items: seq<LineItem>, s: Step, h: Sheet, end: int, restLog: seq<Outcome>, last: int)
    requires |items| > 0 && |restLog| == |items| - 1
    requires s.outcome.RowMatched? ==>
               && s.cursor == s.outcome.row + 1
               && Cell(s.sheet, s.outcome.row, NotesCol) == items[0].qty
               && Cell(s.sheet, s.outcome.row, QtyCol) == ""
    requires TakenRows(s.sheet, h, s.cursor, end, restLog, last)
    requires Settled(h, items[1..], restLog)
    ensures Settled(h, items, [s.outcome] + restLog)
  {
    var log := [s.outcome] + restLog;
    forall i | 0 <= i < |items| && log[i].RowMatched?
      ensures Cell(h, log[i].row, NotesCol) == items[i].qty && Cell(h, log[i].row, QtyCol) == ""
    {
      if i == 0 {
        assert log[0] == s.outcome;
        assert s.outcome.row !in MatchedRows(restLog);
      } else {
        assert items[i] == items[1..][i - 1] && log[i] == restLog[i - 1];
      }
    }
  }

  /**
   `process_status_partially_received` from the item loop on: the scan ends
   at `len(col_values(M)) + 1` inclusive, the handler always returns true, and
   the cursor it hands back is the one the next order of the tab starts from.
   */
  datatype Result = Result(sheet: Sheet, cursor: int, ok: bool, log: seq<Outcome>)

  /** The last row the scan looks at: `len(col_values(M)) + 1`. */
  function ScanEnd(g: Sheet): int {
    ColumnLength(g, OrderCol) + 1
  }

  function ProcessPartial(g: Sheet, cursor: int, raw: seq<LineItem>): (res: Result)
    requires 1 <= cursor
    ensures res.ok && |res.log| == |raw|
    ensures cursor <= res.cursor
    ensures TakenRows(g, res.sheet, cursor, res.cursor, res.log, ScanEnd(g))
    ensures FirstFits(g, cursor, ScrapeAll(raw), res.log, ScanEnd(g))
    ensures Settled(res.sheet, ScrapeAll(raw), res.log)
    ensures forall i :: 0 <= i < |res.log| ==> !res.log[i].BucketMatched?
    // Only rows whose quantity cell was non-blank are written.
    ensures forall x :: x in MatchedRows(res.log) ==> Strip(Cell(g, x, QtyCol)) != []
    // and each of them ends with an empty quantity.
    ensures forall x :: x in MatchedRows(res.log) ==> Cell(res.sheet, x, QtyCol) == ""
  {
    var items := ScrapeAll(raw);
    var run := PartialItems(g, cursor, items, ScanEnd(g));
    TakenRowsWereOpen(g, cursor, raw, items, run.log, ScanEnd(g));
    TakenRowsCleared(run.sheet, items, run.log);
    Result(run.sheet, run.cursor, true, run.log)
  }

  /** Every taken row of a settled log has an empty quantity. */
  lemma TakenRowsCleared(h: Sheet, items: seq<LineItem>, log: seq<Outcome>)
    requires |log| == |items| && Settled(h, items, log)
    ensures forall x :: x in MatchedRows(log) ==> Cell(h, x, QtyCol) == ""
  {
    forall x | x in MatchedRows(log)
      ensures Cell(h, x, QtyCol) == ""
    {
      var i :| 0 <= i < |log| && log[i] == RowMatched(x);
    }
  }

  /** A scraped item never has a blank quantity, so a row it matches has a non-blank one. */
  lemma TakenRowsWereOpen(g: Sheet, cursor: int, raw: seq<LineItem>, items: seq<LineItem>, log: seq<Outcome>, last: int)
    requires items == ScrapeAll(raw) && |log| == |items|
    requires FirstFits(g, cursor, items, log, last)
    ensures forall x :: x in MatchedRows(log) ==> Strip(Cell(g, x, QtyCol)) != []
  {
    forall x | x in MatchedRows(log)
      ensures Strip(Cell(g, x, QtyCol)) != []
    {
      var i :| 0 <= i < |log| && log[i] == RowMatched(x);
      TakenRowOpen(g, items[i], CursorAfter(cursor, log[..i]), last, x);
    }
  }

  lemma TakenRowOpen(g: Sheet, it: LineItem, from: int, last: int, x: int)
    requires Strip(it.qty) == it.qty
    requires FitsItem(g, it, from, last, RowMatched(x))
    ensures Strip(Cell(g, x, QtyCol)) != []
  {
  }
}

=== FILE: received.dfy ===
/**
 The "Received" handler: build the index from a snapshot of the sheet, then
 walk the line items and consume whole buckets.
 */
module Received {
  import opened Text
  import opened Grid
  import opened Items
  import opened RowIndex

  /** The item would be looked up: already received, quantity present and numeric. */
  predicate Lookup(it: LineItem, parse: Parser) {
    !AwaitingReceipt(it) && it.qty != [] && parse(it.qty).Number?
  }

  /** The key an item is looked up under: its lower-cased name (not re-stripped) and integer quantity. */
  function ItemKey(it: LineItem, parse: Parser): Key
    requires Lookup(it, parse)
  {
    Key(Lower(it.name), parse(it.qty).value)
  }

  /** Looking at the item's quantity raises `OverflowError`, which nothing in the loop catches. */
  predicate Overflows(it: LineItem, parse: Parser) {
    !AwaitingReceipt(it) && it.qty != [] && parse(it.qty).TooLarge?
  }

  /**
   The rows an item's key finds are the snapshot rows whose stripped,
   lower-cased name equals the item's lower-cased name and whose stripped
   quantity parses to the same integer as the item's: this path compares
   quantities as numbers, not as texts.
   */
  lemma ItemKeyRows(g: Sheet, parse: Parser, m: Index, it: LineItem, r: int)
    requires Describes(Entries(g, parse), |g|, m)
    requires Lookup(it, parse)
    ensures (ItemKey(it, parse) in m && r in m[ItemKey(it, parse)]) <==>
              && 1 <= r <= |g|
              && Strip(Cell(g, r, NameCol)) != [] && Strip(Cell(g, r, QtyCol)) != []
              && Lower(Strip(Cell(g, r, NameCol))) == Lower(it.name)
              && parse(Strip(Cell(g, r, QtyCol))) == Number(parse(it.qty).value)
  {
    IndexMembership(g, parse, m, ItemKey(it, parse), r);
    RowEntryMeaning(g, parse, r);
  }

  /** What one item does; `Raised` is an uncaught `OverflowError` from its quantity. */
  datatype ItemResult = Handled(sheet: Sheet, index: Index, outcome: Outcome) | Raised

  function ReceiveItem(g: Sheet, idx: Index, it: LineItem, parse: Parser): (res: ItemResult)
    requires RowsPositive(idx)
    // The status test comes first, then the empty-quantity test.
    ensures AwaitingReceipt(it) ==> res == Handled(g, idx, SkippedAwaiting)
    ensures !AwaitingReceipt(it) && it.qty == [] ==> res == Handled(g, idx, SkippedEmptyQty)
    ensures !AwaitingReceipt(it) && it.qty != [] && parse(it.qty).NotNumber? ==>
              res == Handled(g, idx, SkippedInvalidQty)
    ensures res.Raised? <==> Overflows(it, parse)
    // A looked-up item consumes its bucket exactly when its key is in the index; otherwise it finds no match.
    ensures Lookup(it, parse) ==>
              && res.Handled?
              && (res.outcome.BucketMatched? <==> ItemKey(it, parse) in idx && idx[ItemKey(it, parse)] != [])
              && (res.outcome.BucketMatched? || res.outcome == NoMatch)
    ensures res.Handled? && !res.outcome.BucketMatched? ==> res.sheet == g && res.index == idx
    ensures res.Handled? && res.outcome.BucketMatched? ==>
              var k := ItemKey(it, parse);
              && res.outcome.rows == idx[k]
              && res.index == idx - {k}
              && (forall r :: r in idx[k] ==>
                    Cell(res.sheet, r, NotesCol) == DecimalText(k.qty) && Cell(res.sheet, r, QtyCol) == "")
              && WritesOnly(g, res.sheet, set x | x in idx[k])
    ensures res.Handled? ==> !res.outcome.RowMatched?
  {
    if AwaitingReceipt(it) then Handled(g, idx, SkippedAwaiting)
    else if it.qty == [] then Handled(g, idx, SkippedEmptyQty)
    else match parse(it.qty)
      case NotNumber => Handled(g, idx, SkippedInvalidQty)
      case TooLarge => Raised
      case Number(q) =>
        var k := Key(Lower(it.name), q);
        if k in idx && idx[k] != [] then
          assert forall i :: 0 <= i < |idx[k]| ==> 1 <= idx[k][i];
          Handled(MoveAll(g, idx[k], DecimalText(q)), idx - {k}, BucketMatched(idx[k]))
        else Handled(g, idx, NoMatch)
  }

  /** Some item before position `i` consumed the bucket of key `k`. */
  ghost predicate ConsumedBefore(items: seq<LineItem>, log: seq<Outcome>, parse: Parser, k: Key, i: int)
    requires i <= |log| <= |items|
  {
    exists j :: 0 <= j < i && log[j].BucketMatched? && Lookup(items[j], parse) && ItemKey(items[j], parse) == k
  }

  /**
   The outcome of item `i`, judged against the index the loop started from:
   a skip for an item still awaiting receipt, an empty quantity or a
   quantity that does not parse; the whole bucket for a key that is in the
   index and that no earlier item consumed; no match otherwise.
   */
  ghost predicate OutcomeAgainst(idx: Index, items: seq<LineItem>, log: seq<Outcome>, parse: Parser, i: int)
    requires 0 <= i < |log| <= |items|
  {
    var it := items[i];
    if AwaitingReceipt(it) then log[i] == SkippedAwaiting
    else if it.qty == [] then log[i] == SkippedEmptyQty
    else if parse(it.qty).NotNumber? then log[i] == SkippedInvalidQty
    else if parse(it.qty).TooLarge? then false
    else
      var k := ItemKey(it, parse);
      if k in idx && idx[k] != [] && !ConsumedBefore(items, log, parse, k, i) then log[i] == BucketMatched(idx[k])
      else log[i] == NoMatch
  }

  /** Row `r` holds the looked-up item's integer in F and an empty G. */
  ghost predicate RowSettled(h: Sheet, it: LineItem, parse: Parser, r: int) {
    && Lookup(it, parse)
    && Cell(h, r, NotesCol) == DecimalText(parse(it.qty).value)
    && Cell(h, r, QtyCol) == ""
  }

  /** Every row of a consumed bucket ends with the item's integer in F and an empty G. */
  ghost predicate Settled(h: Sheet, items: seq<LineItem>, log: seq<Outcome>, parse: Parser)
    requires |log| <= |items|
  {
    forall i, r {:trigger RowSettled(h, items[i], parse, r)} ::
      0 <= i < |log| && log[i].BucketMatched? && r in log[i].rows ==> RowSettled(h, items[i], parse, r)
  }

  lemma SettledAt(h: Sheet, items: seq<LineItem>, log: seq<Outcome>, parse: Parser, i: int, r: int)
    requires |log| <= |items| && Settled(h, items, log, parse)
    requires 0 <= i < |log| && log[i].BucketMatched? && r in log[i].rows
    ensures RowSettled(h, items[i], parse, r)
  {
  }

  /** The item loop: `completed` is false when an item raised and the loop stopped there. */
  datatype Run = Run(sheet: Sheet, index: Index, log: seq<Outcome>, completed: bool)

  /**
   The loop runs over every item unless one overflows, and then it stops at
   the first such item. It is only ever run on the index the handler built,
   whose buckets are disjoint.
   */
  function ReceiveItems(g: Sheet, idx: Index, items: seq<LineItem>, parse: Parser): (run: Run)
    requires RowsPositive(idx) && Disjoint(idx)
    ensures |run.log| <= |items|
    ensures run.completed <==> forall i :: 0 <= i < |items| ==> !Overflows(items[i], parse)
    ensures run.completed ==> |run.log| == |items|
    ensures !run.completed ==> |run.log| < |items| && Overflows(items[|run.log|], parse)
    ensures forall i :: 0 <= i < |run.log| ==> !Overflows(items[i], parse)
    ensures forall i :: 0 <= i < |run.log| ==> OutcomeAgainst(idx, items, run.log, parse, i)
    ensures Settled(run.sheet, items, run.log, parse)
    ensures WritesOnly(g, run.sheet, RowsOf(idx))
    // Only rows of the buckets actually consumed change.
    ensures WritesOnly(g, run.sheet, ConsumedRows(run.log))
    ensures run.index.Keys <= idx.Keys
    ensures forall k :: k in run.index ==> run.index[k] == idx[k]
    ensures MatchedRows(run.log) == []
    decreases |items|
  {
    if items == [] then Run(g, idx, [], true)
    else match ReceiveItem(g, idx, items[0], parse)
      case Raised => Run(g, idx, [], false)
      case Handled(g', idx', o) =>
        assert Disjoint(idx');
        var rest := ReceiveItems(g', idx', items[1..], parse);
        ReceiveStepFrame(g, idx, items[0], parse, rest.sheet);
        ReceiveStepConsumed(g, idx, items[0], parse, rest.sheet, rest.log);
        ReceiveStepOverflow(items, parse, o, rest);
        ReceiveStepOutcomes(g, idx, items, parse, rest.log);
        ReceiveStepSettled(g, idx, items, parse, rest.sheet, rest.log);
        Run(rest.sheet, rest.index, [o] + rest.log, rest.completed)
  }

  /** The overflow clauses carry over from the rest of the items to all of them. */
  lemma ReceiveStepOverflow(items: seq<LineItem>, parse: Parser, o: Outcome, rest: Run)
    requires |items| > 0 && !Overflows(items[0], parse)
    requires |rest.log| <= |items| - 1
    requires rest.completed <==> forall i :: 0 <= i < |items| - 1 ==> !Overflows(items[1..][i], parse)
    requires rest.completed ==> |rest.log| == |items| - 1
    requires !rest.completed ==> |rest.log| < |items| - 1 && Overflows(items[1..][|rest.log|], parse)
    requires forall i :: 0 <= i < |rest.log| ==> !Overflows(items[1..][i], parse)
    ensures rest.completed <==> forall i :: 0 <= i < |items| ==> !Overflows(items[i], parse)
    ensures !rest.completed ==> Overflows(items[|[o] + rest.log|], parse)
    ensures forall i :: 0 <= i < |[o] + rest.log| ==> !Overflows(items[i], parse)
  {
    if !rest.completed {
      assert items[1..][|rest.log|] == items[|rest.log| + 1];
    }
    forall i | 0 < i < |[o] + rest.log|
      ensures !Overflows(items[i], parse)
    {
      assert items[i] == items[1..][i - 1];
    }
    if forall i :: 0 <= i < |items| - 1 ==> !Overflows(items[1..][i], parse) {
      forall i | 0 < i < |items|
        ensures !Overflows(items[i], parse)
      {
        assert items[i] == items[1..][i - 1];
      }
    }
  }

  /** Before position `j + 1` of the whole log, a key was consumed by the first item or before `j` in the rest. */
  lemma ConsumedBeforeStep(items: seq<LineItem>, log: seq<Outcome>, parse: Parser, k: Key, j: int)
    requires |log| > 0 && 0 <= j && j + 1 <= |log| <= |items|
    ensures ConsumedBefore(items, log, parse, k, j + 1) <==>
              || (log[0].BucketMatched? && Lookup(items[0], parse) && ItemKey(items[0], parse) == k)
              || ConsumedBefore(items[1..], log[1..], parse, k, j)
  {
    if ConsumedBefore(items, log, parse, k, j + 1) {
      var j' :| 0 <= j' < j + 1 && log[j'].BucketMatched? && Lookup(items[j'], parse) && ItemKey(items[j'], parse) == k;
      if j' > 0 {
        assert items[1..][j' - 1] == items[j'] && log[1..][j' - 1] == log[j'];
      }
    }
    if ConsumedBefore(items[1..], log[1..], parse, k, j) {
      var j' :| 0 <= j' < j && log[1..][j'].BucketMatched? && Lookup(items[1..][j'], parse)
                && ItemKey(items[1..][j'], parse) == k;
      assert items[1..][j'] == items[j' + 1] && log[1..][j'] == log[j' + 1];
    }
  }

  /** The first item's outcome, followed by the rest's outcomes against the index it left, are all judged right against the starting index. */
  lemma ReceiveStepOutcomes(g: Sheet, idx: Index, items: seq<LineItem>, parse: Parser, restLog: seq<Outcome>)
    requires RowsPositive(idx) && |items| > 0
    requires ReceiveItem(g, idx, items[0], parse).Handled?
    requires |restLog| <= |items| - 1
    requires var res := ReceiveItem(g, idx, items[0], parse);
      forall i :: 0 <= i < |restLog| ==> OutcomeAgainst(res.index, items[1..], restLog, parse, i)
    ensures var log := [ReceiveItem(g, idx, items[0], parse).outcome] + restLog;
      forall i :: 0 <= i < |log| ==> OutcomeAgainst(idx, items, log, parse, i)
  {
    var res := ReceiveItem(g, idx, items[0], parse);
    var log := [res.outcome] + restLog;
    assert log[1..] == restLog;
    forall i | 0 <= i < |log|
      ensures OutcomeAgainst(idx, items, log, parse, i)
    {
      if i > 0 {
        var j := i - 1;
        assert OutcomeAgainst(res.index, items[1..], restLog, parse, j);
        assert items[i] == items[1..][j] && log[i] == restLog[j];
        var it := items[i];
        if Lookup(it, parse) {
          var k := ItemKey(it, parse);
          ConsumedBeforeStep(items, log, parse, k, j);
        }
      }
    }
  }

  /** A consumed bucket's rows are not written again: later items write only rows of other buckets. */
  lemma ReceiveStepSettled(g: Sheet, idx: Index, items: seq<LineItem>, parse: Parser, h: Sheet, restLog: seq<Outcome>)
    requires RowsPositive(idx) && Disjoint(idx) && |items| > 0
    requires ReceiveItem(g, idx, items[0], parse).Handled?
    requires |restLog| <= |items| - 1
    requires var res := ReceiveItem(g, idx, items[0], parse);
      && WritesOnly(res.sheet, h, RowsOf(res.index))
      && Settled(h, items[1..], restLog, parse)
    ensures Settled(h, items, [ReceiveItem(g, idx, items[0], parse).outcome] + restLog, parse)
  {
    var res := ReceiveItem(g, idx, items[0], parse);
    if res.outcome.BucketMatched? {
      forall r | r in res.outcome.rows
        ensures RowSettled(h, items[0], parse, r)
      {
        FirstBucketSettled(g, idx, items[0], parse, h, r);
      }
    }
    SettledCons(h, items, res.outcome, restLog, parse);
  }

  /** Settled rows of the later items, and of the first item's bucket, make the whole log settled. */
  lemma SettledCons(h: Sheet, items: seq<LineItem>, o: Outcome, restLog: seq<Outcome>, parse: Parser)
    requires |items| > 0 && |restLog| <= |items| - 1
    requires Settled(h, items[1..], restLog, parse)
    requires o.BucketMatched? ==> forall r :: r in o.rows ==> RowSettled(h, items[0], parse, r)
    ensures Settled(h, items, [o] + restLog, parse)
  {
    var log := [o] + restLog;
    forall i, r | 0 <= i < |log| && log[i].BucketMatched? && r in log[i].rows
      ensures RowSettled(h, items[i], parse, r)
    {
      if i == 0 {
        assert log[0] == o;
      } else {
        assert items[i] == items[1..][i - 1] && log[i] == restLog[i - 1];
        SettledAt(h, items[1..], restLog, parse, i - 1, r);
      }
    }
  }

  /** The rest writes only rows of the buckets left, and none of them holds a row of the consumed bucket. */
  lemma FirstBucketSettled(g: Sheet, idx: Index, it: LineItem, parse: Parser, h: Sheet, r: int)
    requires RowsPositive(idx) && Disjoint(idx)
    requires ReceiveItem(g, idx, it, parse).Handled? && ReceiveItem(g, idx, it, parse).outcome.BucketMatched?
    requires r in ReceiveItem(g, idx, it, parse).outcome.rows
    requires WritesOnly(ReceiveItem(g, idx, it, parse).sheet, h, RowsOf(ReceiveItem(g, idx, it, parse).index))
    ensures && Lookup(it, parse)
            && Cell(h, r, NotesCol) == DecimalText(parse(it.qty).value)
            && Cell(h, r, QtyCol) == ""
  {
    var res := ReceiveItem(g, idx, it, parse);
    var k := ItemKey(it, parse);
    assert !AwaitingReceipt(it) && it.qty != [] && parse(it.qty).Number?;
    assert r in idx[k];
    forall k' | k' in res.index
      ensures r !in res.index[k']
    {
      assert k' in idx && k' != k && res.index[k'] == idx[k'];
    }
    assert r !in RowsOf(res.index);
  }

  /** The rows of every bucket the log records as consumed. */
  ghost function ConsumedRows(log: seq<Outcome>): set<int> {
    set i, r | 0 <= i < |log| && log[i].BucketMatched? && r in log[i].rows :: r
  }

  /** The rows consumed by one outcome and then `log` are that outcome's bucket and the rows `log` consumed. */
  lemma ConsumedRowsCons(o: Outcome, log: seq<Outcome>)
    ensures ConsumedRows([o] + log) == (if o.BucketMatched? then (set x | x in o.rows) else {}) + ConsumedRows(log)
  {
    var l := [o] + log;
    forall r | r in ConsumedRows(l)
      ensures r in (if o.BucketMatched? then (set x | x in o.rows) else {}) + ConsumedRows(log)
    {
      var i :| 0 <= i < |l| && l[i].BucketMatched? && r in l[i].rows;
      if i > 0 {
        assert l[i] == log[i - 1];
      }
    }
    forall r | r in ConsumedRows(log)
      ensures r in ConsumedRows(l)
    {
      var i :| 0 <= i < |log| && log[i].BucketMatched? && r in log[i].rows;
      assert l[i + 1] == log[i];
    }
    if o.BucketMatched? {
      forall r | r in o.rows
        ensures r in ConsumedRows(l)
      {
        assert l[0] == o;
      }
    }
  }

  /** The rows two logs consume one after the other are the rows each consumes. */
  lemma ConsumedRowsAppend(a: seq<Outcome>, b: seq<Outcome>)
    ensures ConsumedRows(a + b) == ConsumedRows(a) + ConsumedRows(b)
  {
    var l := a + b;
    forall r | r in ConsumedRows(l)
      ensures r in ConsumedRows(a) + ConsumedRows(b)
    {
      var i :| 0 <= i < |l| && l[i].BucketMatched? && r in l[i].rows;
      if i < |a| {
        assert l[i] == a[i];
      } else {
        assert l[i] == b[i - |a|];
      }
    }
    forall r | r in ConsumedRows(a)
      ensures r in ConsumedRows(l)
    {
      var i :| 0 <= i < |a| && a[i].BucketMatched? && r in a[i].rows;
      assert l[i] == a[i];
    }
    forall r | r in ConsumedRows(b)
      ensures r in ConsumedRows(l)
    {
      var i :| 0 <= i < |b| && b[i].BucketMatched? && r in b[i].rows;
      assert l[|a| + i] == b[i];
    }
  }

  /** One item's writes followed by the rest's stay within the buckets consumed. */
  lemma ReceiveStepConsumed(g: Sheet, idx: Index, it: LineItem, parse: Parser, h: Sheet, restLog: seq<Outcome>)
    requires RowsPositive(idx)
    requires ReceiveItem(g, idx, it, parse).Handled?
    requires WritesOnly(ReceiveItem(g, idx, it, parse).sheet, h, ConsumedRows(restLog))
    ensures WritesOnly(g, h, ConsumedRows([ReceiveItem(g, idx, it, parse).outcome] + restLog))
  {
    var res := ReceiveItem(g, idx, it, parse);
    ConsumedRowsCons(res.outcome, restLog);
    if res.outcome.BucketMatched? {
      WritesOnlyTrans(g, res.sheet, h, (set x | x in res.outcome.rows), ConsumedRows(restLog));
    }
  }

  /** One item's writes followed by the rest's stay within the rows of the index it started from. */
  lemma ReceiveStepFrame(g: Sheet, idx: Index, it: LineItem, parse: Parser, h: Sheet)
    requires RowsPositive(idx)
    requires ReceiveItem(g, idx, it, parse).Handled?
    requires WritesOnly(ReceiveItem(g, idx, it, parse).sheet, h, RowsOf(ReceiveItem(g, idx, it, parse).index))
    ensures WritesOnly(g, h, RowsOf(idx))
  {
    var res := ReceiveItem(g, idx, it, parse);
    assert RowsOf(res.index) <= RowsOf(idx);
    if res.outcome.BucketMatched? {
      var k := ItemKey(it, parse);
      var bucket := set x | x in idx[k];
      assert bucket <= RowsOf(idx);
      WritesOnlyTrans(g, res.sheet, h, bucket, RowsOf(res.index));
      WritesOnlyWeaken(g, h, bucket + RowsOf(res.index), RowsOf(idx));
    } else {
      WritesOnlyWeaken(g, h, RowsOf(res.index), RowsOf(idx));
    }
  }

  /**
   An item that writes nothing and leaves the index alone (a skipped item, an
   invalid quantity, a key not in the index) does not stop the loop: the rest
   of the items are processed exactly as if it were absent.
   */
  lemma UnmatchedItemDoesNotStop(g: Sheet, idx: Index, it: LineItem, rest: seq<LineItem>, parse: Parser)
    requires RowsPositive(idx) && Disjoint(idx)
    requires ReceiveItem(g, idx, it, parse).Handled?
    requires !ReceiveItem(g, idx, it, parse).outcome.BucketMatched?
    ensures var run := ReceiveItems(g, idx, [it] + rest, parse);
      var without := ReceiveItems(g, idx, rest, parse);
      && run.sheet == without.sheet
      && run.completed == without.completed
      && run.log == [ReceiveItem(g, idx, it, parse).outcome] + without.log
  {
    assert ([it] + rest)[0] == it;
    assert ([it] + rest)[1..] == rest;
  }

  /**
   Whole-bucket consumption: once an item has consumed the bucket of its key,
   every later item of the same call with the same key finds nothing and
   writes nothing.
   */
  lemma ConsumedKeyStaysConsumed(g: Sheet, idx: Index, items: seq<LineItem>, parse: Parser, i: int, j: int)
    requires RowsPositive(idx) && Disjoint(idx)
    requires 0 <= i < j < |ReceiveItems(g, idx, items, parse).log|
    requires ReceiveItems(g, idx, items, parse).log[i].BucketMatched?
    requires Lookup(items[i], parse) && Lookup(items[j], parse)
    requires ItemKey(items[i], parse) == ItemKey(items[j], parse)
    ensures ReceiveItems(g, idx, items, parse).log[j] == NoMatch
  {
    var log := ReceiveItems(g, idx, items, parse).log;
    assert OutcomeAgainst(idx, items, log, parse, j);
    assert ConsumedBefore(items, log, parse, ItemKey(items[j], parse), j);
  }

  /** A key missing from the index never matches, whatever the items before it did. */
  lemma KeyAbsentStaysUnmatched(g: Sheet, idx: Index, items: seq<LineItem>, parse: Parser, k: Key, j: int)
    requires RowsPositive(idx) && Disjoint(idx)
    requires k !in idx
    requires 0 <= j < |ReceiveItems(g, idx, items, parse).log|
    requires Lookup(items[j], parse) && ItemKey(items[j], parse) == k
    ensures ReceiveItems(g, idx, items, parse).log[j] == NoMatch
  {
    assert OutcomeAgainst(idx, items, ReceiveItems(g, idx, items, parse).log, parse, j);
  }

  /** What a handler reports: the sheet after its writes, its return value, and the per-item outcomes. */
  datatype Result = Result(sheet: Sheet, ok: bool, log: seq<Outcome>)

  /** No row of the snapshot has a quantity that overflows. */
  ghost predicate SnapshotParses(g: Sheet, parse: Parser) {
    forall r :: 1 <= r <= |g| ==> !RowEntry(g, parse, r).Raises?
  }

  /**
   The outcome of item `i` judged against the snapshot itself: the skips as
   the item's own texts decide, and for a looked-up item the whole bucket of
   its key, which is exactly the snapshot rows carrying that key in ascending
   order, when some row carries the key and no earlier item consumed it; no
   match otherwise.
   */
  ghost predicate OutcomeOnSnapshot(g: Sheet, parse: Parser, items: seq<LineItem>, log: seq<Outcome>, i: int)
    requires 0 <= i < |log| <= |items|
  {
    var it := items[i];
    if AwaitingReceipt(it) then log[i] == SkippedAwaiting
    else if it.qty == [] then log[i] == SkippedEmptyQty
    else if parse(it.qty).NotNumber? then log[i] == SkippedInvalidQty
    else if parse(it.qty).TooLarge? then false
    else
      var k := ItemKey(it, parse);
      if Carries(g, parse, k) && !ConsumedBefore(items, log, parse, k, i) then
        && log[i].BucketMatched?
        && Increasing(log[i].rows)
        && forall r :: r in log[i].rows <==> 1 <= r <= |g| && RowEntry(g, parse, r) == Eligible(k)
      else log[i] == NoMatch
  }

  /**
   `process_status_received` from the index build on: scrape the line texts,
   index the snapshot, walk the items. It returns true once every item was
   handled, whether or not any matched; it returns false, having written
   nothing more, when an `OverflowError` escapes from the snapshot or from an
   item, and then the items after the overflowing one are not looked at.
   */
  function ProcessReceived(g: Sheet, raw: seq<LineItem>, parse: Parser): (res: Result)
    ensures res.ok <==> SnapshotParses(g, parse) && forall i :: 0 <= i < |raw| ==> !Overflows(Scrape(raw[i]), parse)
    ensures |res.log| <= |raw|
    ensures res.ok ==> |res.log| == |raw|
    ensures SnapshotParses(g, parse) && !res.ok ==> |res.log| < |raw| && Overflows(Scrape(raw[|res.log|]), parse)
    ensures forall i :: 0 <= i < |res.log| ==> !Overflows(Scrape(raw[i]), parse)
    ensures forall i :: 0 <= i < |res.log| ==> OutcomeOnSnapshot(g, parse, ScrapeAll(raw), res.log, i)
    ensures Settled(res.sheet, ScrapeAll(raw), res.log, parse)
    ensures forall r, c :: Cell(res.sheet, r, c) != Cell(g, r, c) ==>
              && (c == NotesCol || c == QtyCol)
              && 1 <= r <= |g|
              && Strip(Cell(g, r, NameCol)) != [] && Strip(Cell(g, r, QtyCol)) != []
              && parse(Strip(Cell(g, r, QtyCol))).Number?
    // Only F and G of rows in the buckets actually consumed change.
    ensures WritesOnly(g, res.sheet, ConsumedRows(res.log))
    ensures MatchedRows(res.log) == []
    // An overflowing snapshot cell stops the handler before any item is looked at.
    ensures !SnapshotParses(g, parse) ==> res == Result(g, false, [])
    // A consumed row had a non-blank quantity in the snapshot and ends with an empty one.
    ensures forall x :: x in ConsumedRows(res.log) ==> Strip(Cell(g, x, QtyCol)) != [] && Cell(res.sheet, x, QtyCol) == ""
  {
    match BuildIndex(g, parse)
    case None => Result(g, false, [])
    case Some(idx) =>
      var items := ScrapeAll(raw);
      var run := ReceiveItems(g, idx, items, parse);
      ReceivedFrame(g, parse, idx, run.sheet);
      SnapshotOutcomes(g, parse, idx, items, run.log);
      ConsumedRowsCleared(g, run.sheet, parse, items, run.log);
      Result(run.sheet, run.completed, run.log)
  }

  /**
   A consumed row had a non-blank quantity in the snapshot, since only such
   rows are indexed, and its quantity is empty once the bucket is settled.
   */
  lemma ConsumedRowsCleared(g: Sheet, h: Sheet, parse: Parser, items: seq<LineItem>, log: seq<Outcome>)
    requires |log| <= |items|
    requires forall i :: 0 <= i < |log| ==> OutcomeOnSnapshot(g, parse, items, log, i)
    requires Settled(h, items, log, parse)
    ensures forall x :: x in ConsumedRows(log) ==> Strip(Cell(g, x, QtyCol)) != [] && Cell(h, x, QtyCol) == ""
  {
    forall x | x in ConsumedRows(log)
      ensures Strip(Cell(g, x, QtyCol)) != [] && Cell(h, x, QtyCol) == ""
    {
      var i :| 0 <= i < |log| && log[i].BucketMatched? && x in log[i].rows;
      assert OutcomeOnSnapshot(g, parse, items, log, i);
      assert RowEntry(g, parse, x).Eligible?;
      SettledAt(h, items, log, parse, i, x);
    }
  }

  /** Outcomes judged against the index of the snapshot are outcomes judged against the snapshot. */
  lemma SnapshotOutcomes(g: Sheet, parse: Parser, idx: Index, items: seq<LineItem>, log: seq<Outcome>)
    requires Describes(Entries(g, parse), |g|, idx)
    requires |log| <= |items|
    requires forall i :: 0 <= i < |log| ==> OutcomeAgainst(idx, items, log, parse, i)
    ensures forall i :: 0 <= i < |log| ==> OutcomeOnSnapshot(g, parse, items, log, i)
  {
    forall i | 0 <= i < |log|
      ensures OutcomeOnSnapshot(g, parse, items, log, i)
    {
      assert OutcomeAgainst(idx, items, log, parse, i);
      var it := items[i];
      if Lookup(it, parse) {
        var k := ItemKey(it, parse);
        KeyInIndex(g, parse, idx, k);
        if k in idx {
          forall r
            ensures r in idx[k] <==> 1 <= r <= |g| && RowEntry(g, parse, r) == Eligible(k)
          {
            IndexMembership(g, parse, idx, k, r);
          }
        }
      }
    }
  }

  lemma ReceivedFrame(g: Sheet, parse: Parser, idx: Index, h: Sheet)
    requires Describes(Entries(g, parse), |g|, idx)
    requires WritesOnly(g, h, RowsOf(idx))
    ensures forall r, c :: Cell(h, r, c) != Cell(g, r, c) ==>
              && (c == NotesCol || c == QtyCol)
              && 1 <= r <= |g|
              && Strip(Cell(g, r, NameCol)) != [] && Strip(Cell(g, r, QtyCol)) != []
              && parse(Strip(Cell(g, r, QtyCol))).Number?
  {
    forall r, c | Cell(h, r, c) != Cell(g, r, c)
      ensures 1 <= r <= |g| && Strip(Cell(g, r, NameCol)) != [] && Strip(Cell(g, r, QtyCol)) != []
              && parse(Strip(Cell(g, r, QtyCol))).Number?
    {
      IndexedRows(g, parse, idx, r);
    }
  }

  /** A snapshot row whose quantity overflows aborts the handler before any write. */
  lemma SnapshotOverflowWritesNothing(g: Sheet, raw: seq<LineItem>, parse: Parser, r: int)
    requires 1 <= r <= |g| && RowEntry(g, parse, r).Raises?
    ensures ProcessReceived(g, raw, parse) == Result(g, false, [])
  {
  }
}

=== FILE: row_index.dfy ===
/**
 The lookup table the full-receipt ("Received") path builds from a snapshot
 of the sheet: (lower-cased stripped name, integer quantity) to the rows
 carrying that pair, in ascending row order.
 */
module RowIndex {
  import opened Text
  import opened Grid
  import opened Items

  /**
   The outcome of `int(float(text))`: a number, a `ValueError` (which both call
   sites catch), or an `OverflowError` such as the one "inf" raises (which
   neither call site catches).
   */
  datatype Parsed = Number(value: int) | NotNumber | TooLarge

  /** The parse of a quantity text, left as a parameter of the model. */
  type Parser = string -> Parsed

  datatype Key = Key(name: string, qty: int)

  type Index = map<Key, seq<int>>

  /** What the index build makes of one row. */
  datatype Entry = Ineligible | Eligible(key: Key) | Raises

  function RowEntry(g: Sheet, parse: Parser, r: int): Entry {
    var name := Strip(Cell(g, r, NameCol));
    var qty := Strip(Cell(g, r, QtyCol));
    if name == [] || qty == [] then Ineligible
    else match parse(qty)
      case Number(n) => Eligible(Key(Lower(name), n))
      case NotNumber => Ineligible
      case TooLarge => Raises
  }

  /**
   A row is indexed exactly when its stripped name and quantity are both
   non-empty and the quantity parses; the key is the lower-cased name and the
   parsed integer. The build raises exactly on a row whose quantity overflows.
   */
  lemma RowEntryMeaning(g: Sheet, parse: Parser, r: int)
    ensures var name := Strip(Cell(g, r, NameCol));
      var qty := Strip(Cell(g, r, QtyCol));
      && (RowEntry(g, parse, r).Eligible? <==> name != [] && qty != [] && parse(qty).Number?)
      && (RowEntry(g, parse, r).Eligible? ==>
            RowEntry(g, parse, r).key == Key(Lower(name), parse(qty).value))
      && (RowEntry(g, parse, r).Raises? <==> name != [] && qty != [] && parse(qty).TooLarge?)
  {
  }

  /** `RowEntry` of every row of the snapshot; entry `i` is row `i + 1`. */
  function Entries(g: Sheet, parse: Parser): (es: seq<Entry>)
    ensures |es| == |g|
    ensures forall i :: 0 <= i < |g| ==> es[i] == RowEntry(g, parse, i + 1)
  {
    seq(|g|, i requires 0 <= i < |g| => RowEntry(g, parse, i + 1))
  }

  /** Every bucket holds row numbers of at least 1. */
  predicate RowsPositive(m: Index) {
    forall k, i :: k in m && 0 <= i < |m[k]| ==> 1 <= m[k][i]
  }

  /** `m` is exactly the index of rows 1..n, row `r` having entry `es[r - 1]`. */
  ghost predicate Describes(es: seq<Entry>, n: nat, m: Index)
    requires n <= |es|
  {
    && (forall k :: k in m ==> |m[k]| > 0 && Increasing(m[k]))
    && (forall k, i :: k in m && 0 <= i < |m[k]| ==>
          1 <= m[k][i] <= n && es[m[k][i] - 1] == Eligible(k))
    && (forall i :: 0 <= i < n && es[i].Eligible? ==>
          es[i].key in m && i + 1 in m[es[i].key])
  }

  /** No row is listed under two keys. */
  predicate Disjoint(m: Index) {
    forall k1, k2, r :: k1 in m && k2 in m && r in m[k1] && r in m[k2] ==> k1 == k2
  }

  /** The rows listed in any bucket. */
  ghost function RowsOf(m: Index): set<int> {
    set k, r | k in m && r in m[k] :: r
  }

  /**
   The build loop over rows 1..n; `None` when some row's quantity raises
   `OverflowError`, which aborts the whole handler.
   */
  function IndexRows(es: seq<Entry>, n: nat): (m: Option<Index>)
    requires n <= |es|
    ensures m.Some? <==> forall i :: 0 <= i < n ==> !es[i].Raises?
    ensures m.Some? ==> Describes(es, n, m.value)
  {
    if n == 0 then Some(map[])
    else match IndexRows(es, n - 1)
      case None => None
      case Some(m) =>
        match es[n - 1]
        case Ineligible => Some(m)
        case Raises => None
        case Eligible(k) =>
          AppendKeepsIndex(es, n, m, k);
          Some(m[k := (if k in m then m[k] else []) + [n]])
  }

  lemma AppendKeepsIndex(es: seq<Entry>, n: nat, m: Index, k: Key)
    requires 1 <= n <= |es|
    requires Describes(es, n - 1, m)
    requires es[n - 1] == Eligible(k)
    ensures Describes(es, n, m[k := (if k in m then m[k] else []) + [n]])
  {
    AppendKeepsOrder(es, n, m, k);
    AppendKeepsSound(es, n, m, k);
    AppendKeepsComplete(es, n, m, k);
  }

  lemma AppendKeepsOrder(es: seq<Entry>, n: nat, m: Index, k: Key)
    requires 1 <= n <= |es|
    requires Describes(es, n - 1, m)
    ensures var m' := m[k := (if k in m then m[k] else []) + [n]];
      forall k' :: k' in m' ==> |m'[k']| > 0 && Increasing(m'[k'])
  {
    if k in m {
      var b := m[k];
      assert Increasing(b);
      forall i | 0 <= i < |b|
        ensures b[i] < n
      {
        assert 1 <= m[k][i] <= n - 1;
      }
      AppendIncreasing(b, n);
    }
  }

  /** Appending a number above every element keeps a strictly ascending sequence ascending. */
  lemma AppendIncreasing(b: seq<int>, n: int)
    requires Increasing(b)
    requires forall i :: 0 <= i < |b| ==> b[i] < n
    ensures Increasing(b + [n])
  {
    var b' := b + [n];
    forall i, j | 0 <= i < j < |b'|
      ensures b'[i] < b'[j]
    {
      if j < |b| {
        assert b'[i] == b[i] && b'[j] == b[j];
      } else {
        assert b'[i] == b[i];
      }
    }
  }

  lemma AppendKeepsSound(es: seq<Entry>, n: nat, m: Index, k: Key)
    requires 1 <= n <= |es|
    requires Describes(es, n - 1, m)
    requires es[n - 1] == Eligible(k)
    ensures var m' := m[k := (if k in m then m[k] else []) + [n]];
      forall k', i :: k' in m' && 0 <= i < |m'[k']| ==>
        1 <= m'[k'][i] <= n && es[m'[k'][i] - 1] == Eligible(k')
  {
    var m' := m[k := (if k in m then m[k] else []) + [n]];
    forall k', i | k' in m' && 0 <= i < |m'[k']|
      ensures 1 <= m'[k'][i] <= n && es[m'[k'][i] - 1] == Eligible(k')
    {
      if k' == k && k in m && i < |m[k]| {
        assert m'[k'][i] == m[k][i];
      } else if k' != k {
        assert m'[k'] == m[k'];
      }
    }
  }

  lemma AppendKeepsComplete(es: seq<Entry>, n: nat, m: Index, k: Key)
    requires 1 <= n <= |es|
    requires Describes(es, n - 1, m)
    requires es[n - 1] == Eligible(k)
    ensures var m' := m[k := (if k in m then m[k] else []) + [n]];
      forall i :: 0 <= i < n && es[i].Eligible? ==>
        es[i].key in m' && i + 1 in m'[es[i].key]
  {
    var m' := m[k := (if k in m then m[k] else []) + [n]];
    forall i | 0 <= i < n && es[i].Eligible?
      ensures es[i].key in m' && i + 1 in m'[es[i].key]
    {
      if i < n - 1 && es[i].key == k {
        assert i + 1 in m[k];
        assert m'[k] == m[k] + [n];
      }
    }
  }

  /** The index of the whole snapshot (`get_all_values()` scanned from row 1). */
  function BuildIndex(g: Sheet, parse: Parser): (m: Option<Index>)
    ensures m.Some? <==> forall r :: 1 <= r <= |g| ==> !RowEntry(g, parse, r).Raises?
    ensures m.Some? ==> Describes(Entries(g, parse), |g|, m.value) && RowsPositive(m.value) && Disjoint(m.value)
  {
    var es := Entries(g, parse);
    var m := IndexRows(es, |g|);
    assert m.Some? ==> Disjoint(m.value) by {
      if m.Some? {
        DescribedDisjoint(es, |g|, m.value);
      }
    }
    assert (forall i :: 0 <= i < |g| ==> !es[i].Raises?)
       <==> (forall r :: 1 <= r <= |g| ==> !RowEntry(g, parse, r).Raises?) by {
      forall r | 1 <= r <= |g|
        ensures es[r - 1] == RowEntry(g, parse, r)
      {
      }
    }
    m
  }

  lemma DescribedDisjoint(es: seq<Entry>, n: nat, m: Index)
    requires n <= |es| && Describes(es, n, m)
    ensures Disjoint(m)
  {
    forall k1, k2, r | k1 in m && k2 in m && r in m[k1] && r in m[k2]
      ensures k1 == k2
    {
      var i1 :| 0 <= i1 < |m[k1]| && m[k1][i1] == r;
      var i2 :| 0 <= i2 < |m[k2]| && m[k2][i2] == r;
    }
  }

  /** Some row of the snapshot carries key `k`. */
  ghost predicate Carries(g: Sheet, parse: Parser, k: Key) {
    exists r :: 1 <= r <= |g| && RowEntry(g, parse, r) == Eligible(k)
  }

  /** A key is in the index exactly when some snapshot row carries it. */
  lemma KeyInIndex(g: Sheet, parse: Parser, m: Index, k: Key)
    requires Describes(Entries(g, parse), |g|, m)
    ensures k in m <==> Carries(g, parse, k)
  {
    if k in m {
      IndexMembership(g, parse, m, k, m[k][0]);
    }
    if Carries(g, parse, k) {
      var r :| 1 <= r <= |g| && RowEntry(g, parse, r) == Eligible(k);
      IndexMembership(g, parse, m, k, r);
    }
  }

  /** Every eligible row is listed, under its own key, and nothing else is. */
  lemma IndexMembership(g: Sheet, parse: Parser, m: Index, k: Key, r: int)
    requires Describes(Entries(g, parse), |g|, m)
    ensures (k in m && r in m[k]) <==> 1 <= r <= |g| && RowEntry(g, parse, r) == Eligible(k)
  {
    var es := Entries(g, parse);
    if k in m && r in m[k] {
      var i :| 0 <= i < |m[k]| && m[k][i] == r;
      assert es[r - 1] == Eligible(k);
    }
    if 1 <= r <= |g| && RowEntry(g, parse, r) == Eligible(k) {
      assert es[r - 1] == Eligible(k);
      assert r - 1 + 1 in m[es[r - 1].key];
    }
  }

  /** Each bucket lists its rows in strictly ascending order, and no bucket is empty. */
  lemma BucketsAscending(g: Sheet, parse: Parser, m: Index, k: Key)
    requires Describes(Entries(g, parse), |g|, m)
    requires k in m
    ensures |m[k]| > 0
    ensures forall i, j :: 0 <= i < j < |m[k]| ==> m[k][i] < m[k][j]
  {
  }

  /** A row sits in at most one bucket, so whole-bucket consumption writes it at most once. */
  lemma BucketsDisjoint(g: Sheet, parse: Parser, m: Index, k1: Key, k2: Key, r: int)
    requires Describes(Entries(g, parse), |g|, m)
    requires k1 in m && k2 in m && r in m[k1] && r in m[k2]
    ensures k1 == k2
  {
    IndexMembership(g, parse, m, k1, r);
    IndexMembership(g, parse, m, k2, r);
  }

  /**
   The rows of the index are exactly the snapshot rows whose stripped name and
   quantity are non-empty and whose quantity parses; in particular a row whose
   quantity cell was cleared by an earlier order is not indexed.
   */
  lemma IndexedRows(g: Sheet, parse: Parser, m: Index, r: int)
    requires Describes(Entries(g, parse), |g|, m)
    ensures r in RowsOf(m) <==>
      1 <= r <= |g| && Strip(Cell(g, r, NameCol)) != [] && Strip(Cell(g, r, QtyCol)) != []
      && parse(Strip(Cell(g, r, QtyCol))).Number?
  {
    RowEntryMeaning(g, parse, r);
    if r in RowsOf(m) {
      var k :| k in m && r in m[k];
      IndexMembership(g, parse, m, k, r);
    }
    if 1 <= r <= |g| && RowEntry(g, parse, r).Eligible? {
      IndexMembership(g, parse, m, RowEntry(g, parse, r).key, r);
    }
  }
}

=== FILE: scenarios.dfy ===
/**
 Concrete runs of the reconciliation on small sheets: whole-bucket
 consumption, first-fit with an advancing cursor, and the textual quantity
 comparison of the partial path.
 */
module Scenarios {
  import opened Text
  import opened Grid
  import opened Items
  import opened RowIndex
  import Received
  import Partial

  /** A line whose status text is "Received" no longer awaits receipt. */
  lemma ReceivedIsNotAwaiting(it: LineItem)
    requires it.status == "Received"
    ensures !AwaitingReceipt(it)
  {
    LowerMeaning("Received");
  }

  lemma WidgetLower()
    ensures Lower("Widget") == "widget"
  {
  }

  /** A row with `name` in column A and `qty` in column G. */
  function SheetRow(name: string, qty: string): Row {
    [name, "", "", "", "", "", qty]
  }

  /** A header row, then two rows with ("Widget", "5"). */
  function WidgetSheet(): Sheet {
    [SheetRow("Name", "Qty"), SheetRow("Widget", "5"), SheetRow("Widget", "5")]
  }

  lemma WidgetEntries(parse: Parser)
    requires parse("Qty") == NotNumber && parse("5") == Number(5)
    ensures Entries(WidgetSheet(), parse) == [Ineligible, Eligible(Key("widget", 5)), Eligible(Key("widget", 5))]
  {
    StripOfTrimmed("Name");
    StripOfTrimmed("Qty");
    StripOfTrimmed("Widget");
    StripOfTrimmed("5");
    WidgetLower();
  }

  /** The header's "Qty" does not parse, so the index holds one bucket: rows 2 and 3. */
  lemma WidgetIndex(parse: Parser)
    requires parse("Qty") == NotNumber && parse("5") == Number(5)
    ensures BuildIndex(WidgetSheet(), parse) == Some(WidgetBuckets())
  {
    WidgetEntries(parse);
    TwoRowBucket(Entries(WidgetSheet(), parse), Key("widget", 5));
  }

  /** A header row and two rows under the same key give one bucket of rows 2 and 3. */
  lemma TwoRowBucket(es: seq<Entry>, k: Key)
    requires es == [Ineligible, Eligible(k), Eligible(k)]
    ensures IndexRows(es, 3) == Some(map[k := [2, 3]])
  {
    assert IndexRows(es, 1) == Some(map[]);
    assert [] + [2] == [2];
    var m2 := map[k := [2]];
    assert IndexRows(es, 2) == Some(m2);
    assert m2[k] + [3] == [2, 3];
    assert m2[k := [2, 3]] == map[k := [2, 3]];
  }

  /** The index of the Widget sheet: one bucket, rows 2 and 3. */
  function WidgetBuckets(): (m: Index)
    ensures RowsPositive(m) && Disjoint(m)
    ensures Key("widget", 5) in m && m[Key("widget", 5)] == [2, 3]
  {
    map[Key("widget", 5) := [2, 3]]
  }

  lemma WidgetItem(parse: Parser)
    requires parse("5") == Number(5)
    ensures Received.ReceiveItem(WidgetSheet(), WidgetBuckets(), Widget(), parse)
              == Received.Handled(MoveAll(WidgetSheet(), [2, 3], "5"), map[], BucketMatched([2, 3]))
  {
    ReceivedIsNotAwaiting(Widget());
    WidgetLower();
    assert DecimalText(5) == "5";
    assert Received.ItemKey(Widget(), parse) == Key("widget", 5);
    assert WidgetBuckets() - {Key("widget", 5)} == map[];
  }

  function Widget(): LineItem {
    LineItem("Widget", "5", "Received")
  }

  /** The item's texts carry no surrounding whitespace, so scraping keeps it as it is. */
  lemma WidgetScraped()
    ensures ScrapeAll([Widget()]) == [Widget()]
  {
    StripOfTrimmed("Widget");
    StripOfTrimmed("5");
    StripOfTrimmed("Received");
    assert Scrape(Widget()) == Widget();
  }

  lemma WidgetRun(parse: Parser)
    requires parse("5") == Number(5)
    ensures var run := Received.ReceiveItems(WidgetSheet(), WidgetBuckets(), [Widget()], parse);
      && run.completed
      && run.log == [BucketMatched([2, 3])]
      && run.sheet == MoveAll(WidgetSheet(), [2, 3], "5")
  {
    WidgetItem(parse);
    OneItemRun(WidgetSheet(), WidgetBuckets(), Widget(), parse, MoveAll(WidgetSheet(), [2, 3], "5"), BucketMatched([2, 3]));
  }

  /** A single handled item that empties the index is the whole run. */
  lemma OneItemRun(g: Sheet, idx: Index, it: LineItem, parse: Parser, h: Sheet, o: Outcome)
    requires RowsPositive(idx) && Disjoint(idx)
    requires Received.ReceiveItem(g, idx, it, parse) == Received.Handled(h, map[], o)
    ensures Received.ReceiveItems(g, idx, [it], parse) == Received.Run(h, map[], [o], true)
  {
    assert [it][1..] == [];
    assert Received.ReceiveItems(h, map[], [], parse) == Received.Run(h, map[], [], true);
  }

  /**
   Two rows carry ("Widget", 5); one received item ("Widget", "5") updates
   both, and the handler reports true.
   */
  lemma WidgetBucket(parse: Parser)
    requires parse("Qty") == NotNumber && parse("5") == Number(5)
    ensures var res := Received.ProcessReceived(WidgetSheet(), [Widget()], parse);
      && res.ok
      && res.log == [BucketMatched([2, 3])]
      && Cell(res.sheet, 2, NotesCol) == "5" && Cell(res.sheet, 2, QtyCol) == ""
      && Cell(res.sheet, 3, NotesCol) == "5" && Cell(res.sheet, 3, QtyCol) == ""
  {
    WidgetIndex(parse);
    WidgetScraped();
    WidgetRun(parse);
  }

  /** A row with `name` in column A, `qty` in column G and the order number `po` in column M. */
  function OrderRow(name: string, qty: string, po: string): Row {
    [name, "", "", "", "", "", qty, "", "", "", "", "", po]
  }

  /** A header row, then two rows with ("Gadget", "3") under order numbers in column M. */
  function GadgetSheet(): Sheet {
    [OrderRow("Name", "Qty", "PO"), OrderRow("Gadget", "3", "PO-1"), OrderRow("Gadget", "3", "PO-2")]
  }

  function Gadget(): LineItem {
    LineItem("Gadget", "3", "Received")
  }

  /** Column M is filled down to row 3, so the scan runs through row 4. */
  lemma GadgetScanEnd()
    ensures Partial.ScanEnd(GadgetSheet()) == 4
  {
    assert Cell(GadgetSheet(), 3, OrderCol) == "PO-2";
  }

  lemma GadgetScraped()
    ensures ScrapeAll([Gadget(), Gadget()]) == [Gadget(), Gadget()]
  {
    StripOfTrimmed("Gadget");
    StripOfTrimmed("3");
    StripOfTrimmed("Received");
    assert Scrape(Gadget()) == Gadget();
  }

  /** The Gadget item matches a row holding "Gadget" in A and "3" in G. */
  lemma GadgetMatches(g: Sheet, r: int)
    requires Cell(g, r, NameCol) == "Gadget" && Cell(g, r, QtyCol) == "3"
    ensures Partial.RowMatches(g, Gadget(), r)
    ensures Gadget().qty != [] && !AwaitingReceipt(Gadget())
  {
    StripOfTrimmed("Gadget");
    StripOfTrimmed("3");
    ReceivedIsNotAwaiting(Gadget());
  }

  /** An item that matches the row under the cursor takes it. */
  lemma TakesRowAtCursor(g: Sheet, cursor: int, it: LineItem, last: int)
    requires 1 <= cursor <= last
    requires it.qty != [] && !AwaitingReceipt(it) && Partial.RowMatches(g, it, cursor)
    ensures Partial.PartialItem(g, cursor, it, last) == Partial.Step(MoveQty(g, cursor, it.qty), cursor + 1, RowMatched(cursor))
  {
  }

  lemma GadgetFirstItem()
    ensures Partial.PartialItem(GadgetSheet(), 2, Gadget(), 4)
              == Partial.Step(MoveQty(GadgetSheet(), 2, "3"), 3, RowMatched(2))
  {
    GadgetMatches(GadgetSheet(), 2);
    TakesRowAtCursor(GadgetSheet(), 2, Gadget(), 4);
  }

  lemma GadgetSecondItem()
    ensures Partial.PartialItem(MoveQty(GadgetSheet(), 2, "3"), 3, Gadget(), 4)
              == Partial.Step(MoveQty(MoveQty(GadgetSheet(), 2, "3"), 3, "3"), 4, RowMatched(3))
  {
    var g := MoveQty(GadgetSheet(), 2, "3");
    assert Cell(g, 3, NameCol) == Cell(GadgetSheet(), 3, NameCol);
    assert Cell(g, 3, QtyCol) == Cell(GadgetSheet(), 3, QtyCol);
    GadgetMatches(g, 3);
    TakesRowAtCursor(g, 3, Gadget(), 4);
  }

  /**
   Two rows carry ("Gadget", "3"); two partial-receipt items ("Gadget", "3")
   take rows 2 and 3 in turn, the handler reports true and hands on cursor 4.
   */
  lemma GadgetFirstFit()
    ensures var res := Partial.ProcessPartial(GadgetSheet(), 2, [Gadget(), Gadget()]);
      && res.ok
      && res.log == [RowMatched(2), RowMatched(3)]
      && res.cursor == 4
  {
    GadgetScanEnd();
    GadgetScraped();
    GadgetFirstItem();
    GadgetSecondItem();
    TwoTakes(GadgetSheet(), MoveQty(GadgetSheet(), 2, "3"), MoveQty(MoveQty(GadgetSheet(), 2, "3"), 3, "3"), Gadget(), 4);
  }

  /** Two items that take rows 2 and 3 one after the other leave the cursor at 4. */
  lemma TwoTakes(g: Sheet, g1: Sheet, g2: Sheet, it: LineItem, last: int)
    requires Partial.PartialItem(g, 2, it, last) == Partial.Step(g1, 3, RowMatched(2))
    requires Partial.PartialItem(g1, 3, it, last) == Partial.Step(g2, 4, RowMatched(3))
    ensures var run := Partial.PartialItems(g, 2, [it, it], last);
      && run.log == [RowMatched(2), RowMatched(3)]
      && run.cursor == 4
  {
    assert [it, it][1..] == [it];
    assert [it][1..] == [];
  }

  /** The partial path compares quantities as text: "2.0" on the page does not take a row holding "2". */
  lemma PartialQuantityIsTextual(g: Sheet, r: int)
    requires Cell(g, r, QtyCol) == "2"
    ensures !Partial.RowMatches(g, LineItem("Widget", "2.0", "Received"), r)
  {
    StripOfTrimmed("2");
    StripOfTrimmed("2.0");
  }
}

=== FILE: text.dfy ===
/**
 Text normalisation the reconciliation relies on: Python's `str.strip()`,
 `str.lower()` (on ASCII letters) and the decimal rendering of an integer
 that the spreadsheet shows after an integer is written to a cell.
 */
module Text {

  /** Python's `str.isspace()`: the characters `str.strip()` removes. */
  predicate IsSpace(c: char) {
    var n := c as int;
    || n == 0x20
    || 0x09 <= n <= 0x0D
    || 0x1C <= n <= 0x1F
    || n == 0x85
    || n == 0xA0
    || n == 0x1680
    || 0x2000 <= n <= 0x200A
    || n == 0x2028
    || n == 0x2029
    || n == 0x202F
    || n == 0x205F
    || n == 0x3000
  }

  predicate AllSpace(s: string) {
    forall i :: 0 <= i < |s| ==> IsSpace(s[i])
  }

  /** Python's `s.strip()`: leading and trailing whitespace removed. */
  function Strip(s: string): string {
    if |s| > 0 && IsSpace(s[0]) then Strip(s[1..])
    else if |s| > 0 && IsSpace(s[|s| - 1]) then Strip(s[..|s| - 1])
    else s
  }

  /**
   The stripped text is a slice of the text with only whitespace cut off on
   either side; it is empty exactly when the text is all whitespace, and
   otherwise neither starts nor ends with whitespace.
   */
  lemma {:induction false} StripMeaning(s: string)
    ensures exists i, j :: 0 <= i <= j <= |s| && Strip(s) == s[i..j] && AllSpace(s[..i]) && AllSpace(s[j..])
    ensures Strip(s) == [] <==> AllSpace(s)
    ensures Strip(s) != [] ==> !IsSpace(Strip(s)[0]) && !IsSpace(Strip(s)[|Strip(s)| - 1])
    ensures |Strip(s)| <= |s|
    decreases |s|
  {
    StripSlice(s);
    if |s| > 0 && IsSpace(s[0]) {
      StripMeaning(s[1..]);
      assert AllSpace(s) <==> AllSpace(s[1..]) by {
        if AllSpace(s[1..]) {
          forall i | 0 <= i < |s|
            ensures IsSpace(s[i])
          {
            if i > 0 {
              assert s[i] == s[1..][i - 1];
            }
          }
        }
      }
    } else if |s| > 0 && IsSpace(s[|s| - 1]) {
      // The first character is not whitespace, so neither text is all whitespace.
      StripMeaning(s[..|s| - 1]);
      assert !IsSpace(s[0]);
      assert s[..|s| - 1][0] == s[0];
    } else if |s| > 0 {
      assert !AllSpace(s) by {
        assert !IsSpace(s[0]);
      }
    }
  }

  /** `Strip(s)` is `s[i..j]` for some whitespace-only prefix `s[..i]` and suffix `s[j..]`. */
  lemma {:induction false} StripSlice(s: string)
    ensures exists i, j :: 0 <= i <= j <= |s| && Strip(s) == s[i..j] && AllSpace(s[..i]) && AllSpace(s[j..])
    decreases |s|
  {
    if |s| > 0 && IsSpace(s[0]) {
      var t := s[1..];
      StripSlice(t);
      var i, j :| 0 <= i <= j <= |t| && Strip(t) == t[i..j] && AllSpace(t[..i]) && AllSpace(t[j..]);
      SliceAfterFirst(s, i, j);
      assert Strip(s) == s[i + 1..j + 1];
    } else if |s| > 0 && IsSpace(s[|s| - 1]) {
      var t := s[..|s| - 1];
      StripSlice(t);
      var i, j :| 0 <= i <= j <= |t| && Strip(t) == t[i..j] && AllSpace(t[..i]) && AllSpace(t[j..]);
      SliceBeforeLast(s, i, j);
      assert Strip(s) == s[i..j];
    } else {
      assert Strip(s) == s[0..|s|] && s[..0] == [] && s[|s|..] == [];
    }
  }

  /** A slice of `s[1..]` framed by whitespace is a slice of `s` framed by whitespace, when `s[0]` is whitespace. */
  lemma SliceAfterFirst(s: string, i: int, j: int)
    requires |s| > 0 && IsSpace(s[0]) && 0 <= i <= j <= |s| - 1
    requires AllSpace(s[1..][..i]) && AllSpace(s[1..][j..])
    ensures s[i + 1..j + 1] == s[1..][i..j]
    ensures AllSpace(s[..i + 1]) && AllSpace(s[j + 1..])
  {
    var t := s[1..];
    assert s[i + 1..j + 1] == t[i..j] by {
      forall k | 0 <= k < j - i
        ensures s[i + 1..j + 1][k] == t[i..j][k]
      {
        assert s[i + 1..j + 1][k] == s[i + 1 + k] == t[i + k];
      }
    }
    assert s[j + 1..] == t[j..];
    assert s[..i + 1] == [s[0]] + t[..i];
    AllSpaceConcat([s[0]], t[..i]);
  }

  /** A slice of `s[..|s| - 1]` framed by whitespace is a slice of `s` framed by whitespace, when the last character is whitespace. */
  lemma SliceBeforeLast(s: string, i: int, j: int)
    requires |s| > 0 && IsSpace(s[|s| - 1]) && 0 <= i <= j <= |s| - 1
    requires AllSpace(s[..|s| - 1][..i]) && AllSpace(s[..|s| - 1][j..])
    ensures s[i..j] == s[..|s| - 1][i..j]
    ensures AllSpace(s[..i]) && AllSpace(s[j..])
  {
    var t := s[..|s| - 1];
    assert s[..i] == t[..i];
    assert s[j..] == t[j..] + [s[|s| - 1]];
    AllSpaceConcat(t[j..], [s[|s| - 1]]);
  }

  lemma AllSpaceConcat(a: string, b: string)
    requires AllSpace(a) && AllSpace(b)
    ensures AllSpace(a + b)
  {
    forall k | 0 <= k < |a + b|
      ensures IsSpace((a + b)[k])
    {
      if k >= |a| {
        assert (a + b)[k] == b[k - |a|];
      }
    }
  }

  /** A text with no surrounding whitespace is its own strip. */
  lemma StripOfTrimmed(s: string)
    requires s == [] || (!IsSpace(s[0]) && !IsSpace(s[|s| - 1]))
    ensures Strip(s) == s
  {
  }

  /** Stripping twice is stripping once. */
  lemma StripIdempotent(s: string)
    ensures Strip(Strip(s)) == Strip(s)
  {
    StripMeaning(s);
    StripOfTrimmed(Strip(s));
  }

  function LowerChar(c: char): char {
    if 'A' <= c <= 'Z' then (c as int + ('a' as int - 'A' as int)) as char else c
  }

  /** Python's `s.lower()`, restricted to the ASCII letters. */
  function Lower(s: string): string {
    if s == [] then [] else [LowerChar(s[0])] + Lower(s[1..])
  }

  /** Lower-casing maps every character on its own and keeps the length. */
  lemma {:induction false} LowerMeaning(s: string)
    ensures |Lower(s)| == |s|
    ensures forall i :: 0 <= i < |s| ==> Lower(s)[i] == LowerChar(s[i])
    decreases |s|
  {
    if s != [] {
      LowerMeaning(s[1..]);
    }
  }

  predicate IsDigit(c: char) {
    '0' <= c <= '9'
  }

  function DigitChar(d: nat): char
    requires d < 10
  {
    ('0' as int + d) as char
  }

  /** Decimal digits of a natural number, most significant first, no leading zeros. */
  function NatText(n: nat): (s: string)
    ensures |s| > 0
    ensures forall i :: 0 <= i < |s| ==> IsDigit(s[i])
    ensures |s| > 1 ==> s[0] != '0'
  {
    if n < 10 then [DigitChar(n)] else NatText(n / 10) + [DigitChar(n % 10)]
  }

  /** How a cell shows an integer written into it: optional minus sign, then digits. */
  function DecimalText(n: int): (s: string)
    ensures |s| > 0
    ensures n < 0 <==> s[0] == '-'
  {
    if n < 0 then "-" + NatText(-n) else NatText(n)
  }

  function DigitValue(c: char): nat
    requires IsDigit(c)
  {
    c as int - '0' as int
  }

  function DigitsValue(s: string): nat
    requires forall i :: 0 <= i < |s| ==> IsDigit(s[i])
  {
    if s == [] then 0 else 10 * DigitsValue(s[..|s| - 1]) + DigitValue(s[|s| - 1])
  }

  /** Reads a text produced by `DecimalText` back as an integer. */
  function DecimalValue(s: string): int
    requires |s| > 0
    requires s[0] == '-' ==> forall i :: 1 <= i < |s| ==> IsDigit(s[i])
    requires s[0] != '-' ==> forall i :: 0 <= i < |s| ==> IsDigit(s[i])
  {
    if s[0] == '-' then 0 - DigitsValue(s[1..]) else DigitsValue(s)
  }

  lemma {:induction false} NatTextValue(n: nat)
    ensures DigitsValue(NatText(n)) == n
    decreases n
  {
    if n >= 10 {
      var s := NatText(n);
      NatTextValue(n / 10);
      assert s[..|s| - 1] == NatText(n / 10);
    }
  }

  /** The decimal text of an integer reads back as that integer. */
  lemma DecimalRoundTrip(n: int)
    ensures DecimalValue(DecimalText(n)) == n
  {
    if n < 0 {
      assert DecimalText(n)[1..] == NatText(-n);
      NatTextValue(-n);
    } else {
      NatTextValue(n);
    }
  }
}
